=== FILE: README.md ===
# systemd_persistent_eth in Dafny

`systemd_persistent_eth.py` restores the old `ethN` interface names on a
systemd host before the network comes up. It works in three phases:

1. It parks every interface under a temporary name, `temp<i>`.
2. It renames each interface whose hardware address matches the `HWADDR`
   of an ifcfg file under `/etc/sysconfig/network-scripts`. The new name is
   that file's `DEVICE`, or its `NAME` if there is no `DEVICE`.
3. If the count of unnamed interfaces is non-zero, it gives every interface
   whose name still lacks `eth` the lowest free `eth<k>`.

The project models that core. The links the script sees are a map from
name to link. It holds only the links `ip link show` prints after the
loopback pair, each under the device name it prints (see `LinkTable.Enumerate`
under "Left out"). The `ip link set` calls are command values, and the
table is changed by running them.

Modules, one per file:

- `Results` (`results.dfy`): `Option` and `Result`.
- `PyStr` (`pystr.dfy`): the Python 2 `str` operations the script uses.
  These are `split`, `split(sep)`, `strip`, `rstrip`, `upper`, `lower`, the
  substring test `in` and `'%d' %`. Each comes with lemmas that pin down
  its meaning: joining split pieces gives back the text, stripping removes
  only stripped characters, `Contains` holds iff the needle occurs at some
  position, and printed numbers read back.
- `PyDict` (`pydict.dfy`): a dict filled by a loop of `d[k] = v` is the
  fold `Assign` over the assignments. A key is present iff some assignment
  sets it, and the last assignment wins.
- `Ifcfg` (`ifcfg.dfy`): `parse_config`, `get_config_files` and
  `get_config`.
- `IpLink` (`iplink.dfy`): `get_interface_dict`. It is split into a reading
  of each line (`View`) and the loop over the readings (`ReadPairs`). The
  loop is checked against a pair-wise reference dict, `PairMap`.
- `LinkTable` (`linktable.dfy`): the link table and the effect of `ip link
  set dev X down|up|name Y`. `Enumerate` gives the dict that
  `get_interface_dict` returns for a table.
- `Names` (`names.dfy`): the names `temp<i>` and `eth<k>`.
- `Renamer` (`renamer.dfy`): `link_name_change`, `assign_interface`, and
  the command plans of phase 1 and phase 2.
- `Fallback` (`fallback.dfy`): phase 3.
- `Script` (`script.dfy`): `main`, as the function `Run`.

Python dict iteration order is not modelled. Every `for k in d.keys()` loop
visits keys in an order the caller passes in, and `IsOrder` requires that
order to list each key exactly once.

Three details of the code shape the model:

- Only double quotes are stripped from `HWADDR`, `DEVICE` and `NAME`. A
  single-quoted `HWADDR` never matches (`Renamer.SingleQuotedHwaddrNeverMatches`).
- A match means the stripped `HWADDR` is a substring of the interface's
  address. It does not mean the address is a substring of `HWADDR`.
- An ifcfg file that `open()` cannot read raises `IOError` and ends the
  run. The script does not skip it.

## Model

| member | source | states |
|---|---|---|
| PyStr.ContainsIffOccurs | systemd_persistent_eth.py:137 | `needle in hay` holds exactly when the needle occurs at some position of the haystack |
| PyStr.SplitJoin | systemd_persistent_eth.py:182-183 | joining the pieces of `str.split(sep)` with the separator gives back the text |
| PyStr.SplitPiecesSepFree | systemd_persistent_eth.py:182-183 | no piece of `str.split(sep)` contains the separator |
| PyStr.IndexOfFirst | systemd_persistent_eth.py:183-185 | the cut that `split` makes is at the first occurrence of the separator |
| PyStr.SplitSecond | systemd_persistent_eth.py:183-185 | the second piece of `split('=')` is the text between the first and the second `=` |
| PyStr.LStripSpec | systemd_persistent_eth.py:185 | `lstrip` removes a prefix made only of stripped characters, and what remains does not start with one |
| PyStr.RStripSpec | systemd_persistent_eth.py:134 | `rstrip` removes a suffix made only of stripped characters, and what remains does not end with one |
| PyStr.StripNoLowerCase | systemd_persistent_eth.py:139 | stripping an upper-cased string leaves no lower-case letter |
| PyStr.UpperIsUpper | systemd_persistent_eth.py:139 | `upper()` leaves no lower-case letter and is idempotent |
| PyStr.TokensWellFormed | systemd_persistent_eth.py:134 | every field of `str.split()` is non-empty and free of whitespace |
| PyStr.TokensConcat | systemd_persistent_eth.py:134 | the fields of `str.split()`, concatenated, are the text with its whitespace removed |
| PyStr.TokensOfWord | systemd_persistent_eth.py:134 | a non-empty word without whitespace is a single field of `str.split()` |
| PyStr.TokensSplit | systemd_persistent_eth.py:134 | `str.split()` cuts at every whitespace character: the fields of `a + c + b`, with `c` whitespace, are those of `a` followed by those of `b`; with the previous row this fixes the fields of every line |
| PyStr.NatToStringNoLeadingZero | systemd_persistent_eth.py:152 | `'%d' % n` has no leading zero, and it is `"0"` exactly when `n` is 0 |
| PyStr.NatToStringRoundTrip | systemd_persistent_eth.py:152 | the decimal text `'%d' % n` reads back as `n` |
| PyDict.AssignKeys | systemd_persistent_eth.py:185 | a key is in a dict filled by assignments exactly when some assignment sets it |
| PyDict.AssignLastWins | systemd_persistent_eth.py:185 | a key holds the value of the last assignment that sets it |
| PyDict.AssignValueSource | systemd_persistent_eth.py:141 | every value in such a dict was written by an assignment to its key |
| Ifcfg.LineEntry | systemd_persistent_eth.py:183-185 | a line gives an entry exactly when it contains `=`; the key is the upper-cased, stripped text before the first `=`; the value is the upper-cased, stripped text between the first and second `=` |
| Ifcfg.ParseLinesKeys | systemd_persistent_eth.py:182-185 | a key is in the parsed record exactly when some line with `=` defines it |
| Ifcfg.ParseLinesLastWins | systemd_persistent_eth.py:182-185 | for a key defined on several lines, the last line's value is kept |
| Ifcfg.GetConfigFiles | systemd_persistent_eth.py:164-177 | paths containing `:` are never read or returned; every other globbed path is returned with its contents; the first unreadable path raises `IOError`, and only when there is one |
| Ifcfg.GetConfig | systemd_persistent_eth.py:189-197 | the catalog has exactly the files read, each mapped to `parse_config` of its text; it fails exactly when reading does |
| IpLink.ReadPairs | systemd_persistent_eth.py:132-143 | lines 0 and 1 are skipped; it fails with `IndexError` at the first later line with fewer than two fields, and only then; otherwise it returns the dict built by the even/odd line pairs in order |
| IpLink.AddressLineStep | systemd_persistent_eth.py:138-141 | an address line stores the current name with its address and link flag, which is exactly one more pair of the reference dict |
| IpLink.GetInterfaceDict | systemd_persistent_eth.py:126-143 | the same over the text lines: success exactly when every line after the loopback pair has two fields; the error names the first line without two fields, and every line between the loopback pair and it has two |
| IpLink.ViewSpec | systemd_persistent_eth.py:134-139 | a line has a reading exactly when it has two fields; its address has no lower-case letter; its link flag is set exactly when the line contains `LOWER_UP` |
| IpLink.PairMapKeys | systemd_persistent_eth.py:135-141 | a name is in the dict exactly when some name line after the loopback pair gives it |
| IpLink.PairMapLastWins | systemd_persistent_eth.py:141 | a name given by several pairs keeps the entry of the last one |
| IpLink.PairMapEntries | systemd_persistent_eth.py:136-141 | every entry comes from one pair, and its third component equals its key |
| IpLink.InterfaceDictEntries | systemd_persistent_eth.py:136-141 | every entry is the one built from some name/address line pair whose name line gives its key; its address has no lower-case letter, and its link flag is set exactly when that name line contains `LOWER_UP` |
| LinkTable.Step | systemd_persistent_eth.py:146-159 | down and up change only the named link's state; a rename moves the link only when the source exists and the target is free; otherwise the command is a no-op |
| LinkTable.ApplyKeepsLinks | systemd_persistent_eth.py:146-159 | no sequence of `ip link set` commands creates or loses a link, or changes the set of hardware addresses |
| LinkTable.Enumerate | systemd_persistent_eth.py:134-141 | the dict read from a table has exactly its names as keys; each entry's third component is its key, its address is the upper-cased hardware address of the link under that name, and its link flag is that link's state |
| Names.TempInjective | systemd_persistent_eth.py:152 | `temp<i>` and `temp<j>` are equal only when `i == j` |
| Names.EthInjective | systemd_persistent_eth.py:239-242 | `eth<i>` and `eth<j>` are equal only when `i == j` |
| Names.TempLacksEth | systemd_persistent_eth.py:152 | no `temp<i>` contains `eth`, so any interface still parked is a phase 3 candidate |
| Names.EthContainsEth | systemd_persistent_eth.py:238-239 | every `eth<k>` contains `eth`, so phase 3 never picks a name it gave |
| Renamer.LinkNameChangeEffect | systemd_persistent_eth.py:145-162 | given an existing source and a free target (`dest`, or `temp<idx>` when `dest` is falsy), the link moves and stays down unless the target is `temp<idx>`; otherwise no name changes; every other link keeps its name and state, except that a link named `temp<idx>` is brought up; a link that already held the target keeps it when the rename fails |
| Renamer.LinkNameChangeUpIgnoresDest | systemd_persistent_eth.py:151-159 | the up command is for `temp<idx>` whatever `dest` is; the rename command's target depends on `dest` |
| Renamer.RecordTarget | systemd_persistent_eth.py:203-209 | a record asks for a name exactly when it matches and has `DEVICE` or `NAME`; `DEVICE` is preferred; the name is lower-cased with `"` stripped |
| Renamer.MatchesIffOccurs | systemd_persistent_eth.py:203 | a record matches exactly when its `HWADDR`, with `"` stripped, occurs in the interface's address |
| Renamer.EmptyHwaddrMatchesAll | systemd_persistent_eth.py:203 | a `HWADDR` that is empty after stripping `"` matches every interface |
| Renamer.SingleQuotedHwaddrNeverMatches | systemd_persistent_eth.py:203 | a single-quoted `HWADDR` never matches an address without a single quote |
| Renamer.Renames | systemd_persistent_eth.py:202-211 | the count is the number of records asking for a name; there are three commands per such record; every rename is of the interface's stale name |
| Renamer.RenamesTriples | systemd_persistent_eth.py:202-211 | the r-th record asking for a name, in visiting order, gets commands `3r` to `3r+2`, and they are exactly `link_name_change(0, entry, its name)` |
| Renamer.AssignInterface | systemd_persistent_eth.py:199-211 | the count equals the number of records that match and have `DEVICE` or `NAME`; the commands are, in visiting order, one `link_name_change(0, interface[2], target)` per such record, so every command is a down of `interface[2]`, an up of `temp0`, or a rename of `interface[2]` to such a record's target (`temp0` when that target is empty) |
| Renamer.ActionableRecordRenamed | systemd_persistent_eth.py:202-210 | every record that matches and has `DEVICE` or `NAME` gets its own `link_name_change(0, interface[2], target)` triple |
| Renamer.AssignOneEffect | systemd_persistent_eth.py:199-211 | when exactly one record asks for a name, the interface exists and the target is free, the link moves to the target with its own address |
| Renamer.QuarantinePlanCommands | systemd_persistent_eth.py:216-218 | the i-th enumerated interface is taken down, renamed to `temp<i>`, and `temp<i>` is brought up |
| Renamer.QuarantineTargetsDistinct | systemd_persistent_eth.py:217-218 | the temporary names phase 1 asks for are pairwise distinct |
| Renamer.QuarantineEffect | systemd_persistent_eth.py:216-218 | starting with `temp<0>`..`temp<N-1>` free, phase 1 leaves exactly those names, the i-th enumerated link under `temp<i>`, up, with its own address |
| Renamer.MatchPlan | systemd_persistent_eth.py:227-230 | `success` is unbound exactly when there is no interface; otherwise it is the count of the interface visited last |
| Renamer.MatchPlanCommands | systemd_persistent_eth.py:227-228 | every command of phase 2 is one that `assign_interface` issues for one of the visited interfaces: a down of its stale name, an up of `temp0`, or a rename of its stale name to a matching record's target |
| Renamer.MatchPlanConcat | systemd_persistent_eth.py:227-228 | the commands of phase 2 are those of `assign_interface` on each visited interface, concatenated in visiting order |
| Renamer.SuccessIsLastCount | systemd_persistent_eth.py:227-228 | two visiting orders that end with the same interface give the same `success`, whatever the others matched |
| Fallback.NextFree | systemd_persistent_eth.py:239-242 | the search returns the least `j >= idx` whose `eth<j>` is not a snapshot name |
| Fallback.Unnamed | systemd_persistent_eth.py:238 | the phase 3 candidates are exactly the visited keys whose names lack `eth`, without repeats |
| Fallback.UnnamedInOrder | systemd_persistent_eth.py:237-238 | the candidates keep visiting order: they sit at strictly increasing positions of the order, and every position whose interface lacks `eth` is among them |
| Fallback.FallbackPicks | systemd_persistent_eth.py:236-245 | every chosen `k` is at least the counter, and no chosen `eth<k>` is a key of the snapshot taken at line 232 |
| Fallback.FallbackPicksIncreasing | systemd_persistent_eth.py:239-245 | the chosen `k` strictly increase, because the counter moves past each pick |
| Fallback.FallbackPicksFirst | systemd_persistent_eth.py:239-242 | every `eth<j>` from the counter up to the first pick is a snapshot name |
| Fallback.FallbackPicksGaps | systemd_persistent_eth.py:239-245 | every `eth<j>` strictly between two consecutive picks is a snapshot name |
| Fallback.FallbackPicksEntries | systemd_persistent_eth.py:237-238 | exactly the interfaces whose names lack `eth` are renamed, in visiting order |
| Fallback.CandidatesPicked | systemd_persistent_eth.py:237-244 | every interface whose snapshot name lacks `eth` is renamed by some pick |
| Fallback.PickCommandsKeys | systemd_persistent_eth.py:244 | feasible picks rename exactly the picked interfaces to exactly the chosen names, pick by pick: each picked link, with its own hardware address, ends under its own `eth<k>`, left down |
| Fallback.PickCommandsFrame | systemd_persistent_eth.py:244 | a link no pick renames, other than `temp0`, keeps its name and state through the picks |
| Fallback.FallbackMoves | systemd_persistent_eth.py:237-244 | phase 3 moves each picked interface's link, with its own hardware address, to the `eth<k>` chosen for it and leaves it down |
| Fallback.FallbackEffect | systemd_persistent_eth.py:234-245 | phase 3 keeps the number of links, and afterwards every name contains `eth` |
| Script.Phase1Effect | systemd_persistent_eth.py:216-218 | when `temp<0>`..`temp<N-1>` are free at the start, phase 1 leaves exactly those names, the i-th enumerated link under `temp<i>`, up, with its own address |
| Script.Phases23 | systemd_persistent_eth.py:224-245 | `NameError` exactly when there is no interface, with nothing renamed; otherwise `success` is phase 2's last count, `unnamed` the interface count minus it, the table is phase 2's when `unnamed` is zero, and otherwise phase 3's picks on the snapshot taken after phase 2 are carried out, each picked link ends down under its `eth<k>` with its own address, and every final name contains `eth` |
| Script.Run | systemd_persistent_eth.py:213-245 | an unreadable ifcfg file crashes the run after phase 1, and only it does, with the error naming the first unreadable path; a crash leaves the table phase 1 left; `NameError` occurs exactly when there are no interfaces; the links and their addresses are kept; phase 1's effect when the temporary names are free; `success` is phase 2's last count; `unnamed` is the interface count minus it; when `unnamed` is zero the final table is phase 2's and no fallback rename happens; otherwise the picks are phase 3's on the snapshot after phase 2, they are carried out, and every final name contains `eth` |

## Left out

- `install()` and the `INSTALL` unit text (lines 52-124) are file copying, unit writing and `systemctl` calls. They are pure I/O.
- The `argparse` setup and every `print` are diagnostics. This includes the dict listing on line 140 and the final listing on line 248.
- Running `ip`, `glob` and `open` is not modelled:
  - `ip link show` output is the parameter `lines` of `IpLink.GetInterfaceDict`.
  - In `Script.Run`, each `get_interface_dict()` call is `LinkTable.Enumerate` of the current table. The rendering of a table as `ip link show` text is not modelled.
- LinkTable.Enumerate: it assumes a host whose `ip link show` output fits the script's reading. Under that assumption:
  - the table holds only the links printed after the loopback pair (line 133 skips lines 0 and 1), so `lo` is not in it;
  - each link prints exactly one name line, whose second field after `rstrip(':')` is its device name (no `@peer` suffix, as VLAN and veth links print);
  - each link prints exactly one address line, whose second field is its hardware address (no `altname` or other extra line).
  `Script.Run` says nothing about hosts where this fails. The `IndexError` on a short line (line 139) is modelled only in `IpLink.GetInterfaceDict`.
  - The glob result and the file contents are parameters of `Ifcfg.GetConfigFiles`. A path missing from `contents` is a file `open()` cannot read.
- Python dict iteration order is not modelled. Each loop over `d.keys()` takes its order as an argument.
- Python 3 bytes/str differences and Unicode are out of scope. The model is Python 2 byte strings: six ASCII whitespace characters and ASCII case conversion.
- Renamer.AssignInterface: a record without `HWADDR` raises `KeyError` in the source. The model requires every visited record to have one, and so does `Script.ConfigsReady`.
- LinkTable.Step: the kernel's own refusal reasons are not modelled. Examples are renaming an interface that is up, and invalid or over-long names. A rename fails only on a missing source or a taken target.
- LinkTable.Link: `LOWER_UP` (carrier) is modelled as the administrative up flag, because the renaming logic never reads it.
- IpLink.Iface: the link flag `connection`, which is `True` or `None`, is the boolean `linkUp`.
- Script.Run: phase 2's effect on the table is stated through its command list (`Renamer.MatchPlanConcat`, `Renamer.AssignInterface`) and per call of `link_name_change` (`Renamer.LinkNameChangeEffect`, `Renamer.AssignOneEffect`). There is no closed-form final table, because an interface several records match is renamed several times and each rename depends on the names taken at that point.

=== FILE: fallback.dfy ===
/**
  Phase 3 of the script: every interface whose name lacks `eth` gets the
  lowest `eth<k>` that is not a name in the snapshot taken after phase 2,
  with `k` counting upwards across the loop.
 */
module Fallback {
  import opened Results
  import opened PyStr
  import opened Names
  import opened LinkTable
  import opened IpLink
  import opened Renamer

  // ---------------------------------------------------------------------------
  // The search for a free eth<k>
  // ---------------------------------------------------------------------------

  /** `n` is `eth<j>` for some `j >= k`. */
  ghost predicate EthAtLeast(n: string, k: nat)
  {
    exists j: nat :: j >= k && n == Eth(j)
  }

  /** The names in `taken` of the form `eth<j>`, `j >= k`: a bound on how far the search can go. */
  ghost function EthFrom(taken: set<string>, k: nat): set<string>
  {
    set n | n in taken && EthAtLeast(n, k)
  }

  /** A subset is no larger than its superset. */
  lemma {:induction false} SubsetSize<T>(a: set<T>, b: set<T>)
    requires a <= b
    ensures |a| <= |b|
    decreases |a|
  {
    if a != {} {
      var x :| x in a;
      SubsetSize(a - {x}, b - {x});
    }
  }

  /** Skipping a taken `eth<k>` shrinks the bound. */
  lemma EthFromShrinks(taken: set<string>, k: nat)
    requires Eth(k) in taken
    ensures |EthFrom(taken, k + 1)| < |EthFrom(taken, k)|
  {
    var a := EthFrom(taken, k + 1);
    var b := EthFrom(taken, k);
    forall n | n in a ensures n in b - {Eth(k)} {
      var j: nat :| j >= k + 1 && n == Eth(j);
      EthInjective(j, k);
    }
    assert EthAtLeast(Eth(k), k);
    SubsetSize(a, b - {Eth(k)});
  }

  /**
    `while tempname in interfaces.keys(): idx += 1`: the least `j >= k`
    whose `eth<j>` is not taken.
   */
  function NextFree(taken: set<string>, k: nat): (j: nat)
    ensures k <= j && Eth(j) !in taken
    ensures forall i :: k <= i < j ==> Eth(i) in taken
    decreases |EthFrom(taken, k)|
  {
    if Eth(k) !in taken then k
    else
      EthFromShrinks(taken, k);
      NextFree(taken, k + 1)
  }

  // ---------------------------------------------------------------------------
  // The picks
  // ---------------------------------------------------------------------------

  /** The snapshot entry's name lacks `eth`: `'eth' not in interfaces[interface_entry][2]`. */
  predicate LacksEth(snapshot: map<string, Iface>, e: string)
    requires e in snapshot
  {
    !Contains(snapshot[e].name, "eth")
  }

  /** Every key of the order is in the snapshot. */
  predicate Keyed(snapshot: map<string, Iface>, order: seq<string>)
  {
    forall i :: 0 <= i < |order| ==> order[i] in snapshot
  }

  /** The keys of `order` whose names lack `eth`, in order. */
  function Unnamed(snapshot: map<string, Iface>, order: seq<string>): (u: seq<string>)
    requires Keyed(snapshot, order)
    ensures forall x :: x in u <==> x in order && x in snapshot && LacksEth(snapshot, x)
    ensures Distinct(order) ==> Distinct(u)
    decreases |order|
  {
    if |order| == 0 then []
    else
      var rest := Unnamed(snapshot, order[1..]);
      assert forall x :: x in order[1..] ==> x in order;
      assert forall x :: x in order ==> x == order[0] || x in order[1..];
      if LacksEth(snapshot, order[0]) then
        assert Distinct(order) ==> order[0] !in order[1..];
        [order[0]] + rest
      else rest
  }

  /** `order` with each key kept when its interface lacks `eth` and blanked otherwise. */
  function Marks(snapshot: map<string, Iface>, order: seq<string>): (ms: seq<Option<string>>)
    requires Keyed(snapshot, order)
    ensures |ms| == |order|
  {
    seq(|order|, i requires 0 <= i < |order| =>
      if LacksEth(snapshot, order[i]) then Some(order[i]) else None)
  }

  /** `Unnamed` keeps the marked keys. */
  lemma {:induction false} UnnamedMarks(snapshot: map<string, Iface>, order: seq<string>)
    requires Keyed(snapshot, order)
    ensures Unnamed(snapshot, order) == PresentTargets(Marks(snapshot, order))
    decreases |order|
  {
    if |order| > 0 {
      UnnamedMarks(snapshot, order[1..]);
      assert Marks(snapshot, order)[1..] == Marks(snapshot, order[1..]);
    }
  }

  /**
    `Unnamed` keeps the order of `order`: its keys sit at strictly
    increasing positions of `order`, and every position whose interface
    lacks `eth` is one of them.
   */
  lemma UnnamedInOrder(snapshot: map<string, Iface>, order: seq<string>) returns (pos: seq<nat>)
    requires Keyed(snapshot, order)
    ensures var u := Unnamed(snapshot, order);
            && |pos| == |u|
            && (forall r :: 0 <= r < |pos| ==> pos[r] < |order| && order[pos[r]] == u[r])
            && (forall r, r' :: 0 <= r < r' < |pos| ==> pos[r] < pos[r'])
            && (forall i :: 0 <= i < |order| && LacksEth(snapshot, order[i]) ==> i in pos)
  {
    var ms := Marks(snapshot, order);
    UnnamedMarks(snapshot, order);
    pos := PresentTargetsPositions(ms);
    var u := Unnamed(snapshot, order);
    forall r | 0 <= r < |pos| ensures pos[r] < |order| && order[pos[r]] == u[r] {
      assert ms[pos[r]] == Some(u[r]);
    }
    forall i | 0 <= i < |order| && LacksEth(snapshot, order[i]) ensures i in pos {
      assert ms[i].Some?;
    }
  }

  /** One fallback rename: interface `entry` to `eth<k>`. */
  datatype Pick = Pick(entry: string, k: nat)

  /**
    The loop of phase 3 from counter `idx`: the interfaces whose names lack
    `eth`, in order, each with the lowest free `eth<k>` at or above the
    counter, after which the counter moves past `k`. Every chosen `k` is at
    least `idx`, and none of the `eth<k>` is a snapshot name.
   */
  function FallbackPicks(snapshot: map<string, Iface>, order: seq<string>, idx: nat): (ps: seq<Pick>)
    requires Keyed(snapshot, order)
    ensures forall i :: 0 <= i < |ps| ==> idx <= ps[i].k && Eth(ps[i].k) !in snapshot
    decreases |order|
  {
    if |order| == 0 then []
    else
      var e := order[0];
      assert Keyed(snapshot, order[1..]);
      if LacksEth(snapshot, e) then
        var k := NextFree(snapshot.Keys, idx);
        var rest := FallbackPicks(snapshot, order[1..], k + 1);
        var ps := [Pick(e, k)] + rest;
        assert forall i :: 1 <= i < |ps| ==> ps[i] == rest[i - 1];
        ps
      else
        FallbackPicks(snapshot, order[1..], idx)
  }

  /** One iteration of the phase 3 loop: the first interface is picked exactly when its name lacks `eth`. */
  lemma FallbackPicksUnfold(snapshot: map<string, Iface>, order: seq<string>, idx: nat)
    requires Keyed(snapshot, order) && |order| > 0
    ensures Keyed(snapshot, order[1..])
    ensures var k := NextFree(snapshot.Keys, idx);
            LacksEth(snapshot, order[0]) ==>
              FallbackPicks(snapshot, order, idx) == [Pick(order[0], k)] + FallbackPicks(snapshot, order[1..], k + 1)
    ensures !LacksEth(snapshot, order[0]) ==>
              FallbackPicks(snapshot, order, idx) == FallbackPicks(snapshot, order[1..], idx)
  {
    assert Keyed(snapshot, order[1..]);
  }

  /** One step of the filter: the first interface is kept exactly when its name lacks `eth`. */
  lemma UnnamedUnfold(snapshot: map<string, Iface>, order: seq<string>)
    requires Keyed(snapshot, order) && |order| > 0
    ensures Keyed(snapshot, order[1..])
    ensures LacksEth(snapshot, order[0]) ==> Unnamed(snapshot, order) == [order[0]] + Unnamed(snapshot, order[1..])
    ensures !LacksEth(snapshot, order[0]) ==> Unnamed(snapshot, order) == Unnamed(snapshot, order[1..])
  {
    assert Keyed(snapshot, order[1..]);
  }

  /** The chosen numbers strictly increase along `ps`. */
  predicate Increasing(ps: seq<Pick>)
  {
    forall i, j :: 0 <= i < j < |ps| ==> ps[i].k < ps[j].k
  }

  /** Every `eth<j>` strictly between two consecutive picks of `ps` is a snapshot name. */
  predicate GapsTaken(snapshot: map<string, Iface>, ps: seq<Pick>)
  {
    forall i :: 0 < i < |ps| ==> forall j :: ps[i - 1].k < j < ps[i].k ==> Eth(j) in snapshot
  }

  /** A pick below every later pick, in front of increasing picks, keeps them increasing. */
  lemma IncreasingCons(p: Pick, rest: seq<Pick>)
    requires Increasing(rest)
    requires forall i :: 0 <= i < |rest| ==> p.k < rest[i].k
    ensures Increasing([p] + rest)
  {
    var ps := [p] + rest;
    forall i, j | 0 <= i < j < |ps| ensures ps[i].k < ps[j].k {
      assert ps[j] == rest[j - 1];
      if i > 0 {
        assert ps[i] == rest[i - 1];
      }
    }
  }

  /** The chosen numbers strictly increase along the picks. */
  lemma {:induction false} FallbackPicksIncreasing(snapshot: map<string, Iface>, order: seq<string>, idx: nat)
    requires Keyed(snapshot, order)
    ensures Increasing(FallbackPicks(snapshot, order, idx))
    decreases |order|
  {
    if |order| > 0 {
      FallbackPicksUnfold(snapshot, order, idx);
      if LacksEth(snapshot, order[0]) {
        var k := NextFree(snapshot.Keys, idx);
        FallbackPicksIncreasing(snapshot, order[1..], k + 1);
        IncreasingCons(Pick(order[0], k), FallbackPicks(snapshot, order[1..], k + 1));
      } else {
        FallbackPicksIncreasing(snapshot, order[1..], idx);
      }
    }
  }

  /** The first pick takes the lowest name available at or above the counter. */
  lemma {:induction false} FallbackPicksFirst(snapshot: map<string, Iface>, order: seq<string>, idx: nat)
    requires Keyed(snapshot, order)
    ensures var ps := FallbackPicks(snapshot, order, idx);
            |ps| > 0 ==> forall j :: idx <= j < ps[0].k ==> Eth(j) in snapshot
    decreases |order|
  {
    if |order| > 0 {
      FallbackPicksUnfold(snapshot, order, idx);
      if !LacksEth(snapshot, order[0]) {
        FallbackPicksFirst(snapshot, order[1..], idx);
      }
    }
  }

  /** A pick whose gap to the next pick is all taken, in front of picks with taken gaps, keeps the gaps taken. */
  lemma GapsCons(snapshot: map<string, Iface>, p: Pick, rest: seq<Pick>)
    requires GapsTaken(snapshot, rest)
    requires |rest| > 0 ==> forall j :: p.k < j < rest[0].k ==> Eth(j) in snapshot
    ensures GapsTaken(snapshot, [p] + rest)
  {
    var ps := [p] + rest;
    forall i | 0 < i < |ps| ensures forall j :: ps[i - 1].k < j < ps[i].k ==> Eth(j) in snapshot {
      assert ps[i] == rest[i - 1];
      if i > 1 {
        assert ps[i - 1] == rest[i - 2];
      }
    }
  }

  /** Every `eth<j>` strictly between two consecutive picks is a snapshot name. */
  lemma {:induction false} FallbackPicksGaps(snapshot: map<string, Iface>, order: seq<string>, idx: nat)
    requires Keyed(snapshot, order)
    ensures GapsTaken(snapshot, FallbackPicks(snapshot, order, idx))
    decreases |order|
  {
    if |order| > 0 {
      FallbackPicksUnfold(snapshot, order, idx);
      if LacksEth(snapshot, order[0]) {
        var k := NextFree(snapshot.Keys, idx);
        FallbackPicksGaps(snapshot, order[1..], k + 1);
        FallbackPicksFirst(snapshot, order[1..], k + 1);
        GapsCons(snapshot, Pick(order[0], k), FallbackPicks(snapshot, order[1..], k + 1));
      } else {
        FallbackPicksGaps(snapshot, order[1..], idx);
      }
    }
  }

  /** Picks that rename the interfaces of `u`, one by one, still do so with one more in front. */
  lemma EntriesCons(p: Pick, rest: seq<Pick>, u: seq<string>)
    requires |rest| == |u| && forall i :: 0 <= i < |rest| ==> rest[i].entry == u[i]
    ensures var ps := [p] + rest;
            var v := [p.entry] + u;
            |ps| == |v| && forall i :: 0 <= i < |ps| ==> ps[i].entry == v[i]
  {
  }

  /** Exactly the interfaces whose names lack `eth` are picked, in visiting order. */
  lemma {:induction false} FallbackPicksEntries(snapshot: map<string, Iface>, order: seq<string>, idx: nat)
    requires Keyed(snapshot, order)
    ensures var ps := FallbackPicks(snapshot, order, idx);
            && |ps| == |Unnamed(snapshot, order)|
            && forall i :: 0 <= i < |ps| ==> ps[i].entry == Unnamed(snapshot, order)[i]
    decreases |order|
  {
    if |order| > 0 {
      FallbackPicksUnfold(snapshot, order, idx);
      UnnamedUnfold(snapshot, order);
      if LacksEth(snapshot, order[0]) {
        var k := NextFree(snapshot.Keys, idx);
        FallbackPicksEntries(snapshot, order[1..], k + 1);
        EntriesCons(Pick(order[0], k), FallbackPicks(snapshot, order[1..], k + 1), Unnamed(snapshot, order[1..]));
      } else {
        FallbackPicksEntries(snapshot, order[1..], idx);
      }
    }
  }

  /** `link_name_change(0, entry, 'eth%d' % k)` for each pick in turn. */
  function PickCommands(ps: seq<Pick>): (cmds: seq<Cmd>)
    ensures |cmds| == 3 * |ps|
    decreases |ps|
  {
    if |ps| == 0 then [] else LinkNameChange(0, ps[0].entry, Some(Eth(ps[0].k))) + PickCommands(ps[1..])
  }

  /** The commands of phase 3 for a snapshot and its iteration order. */
  function FallbackPlan(snapshot: map<string, Iface>, order: seq<string>): seq<Cmd>
    requires Keyed(snapshot, order)
  {
    PickCommands(FallbackPicks(snapshot, order, 0))
  }

  // ---------------------------------------------------------------------------
  // The effect of phase 3
  // ---------------------------------------------------------------------------

  /** The interfaces the picks rename. */
  function Sources(ps: seq<Pick>): set<string>
  {
    set i | 0 <= i < |ps| :: ps[i].entry
  }

  /** The names the picks give. */
  function Targets(ps: seq<Pick>): set<string>
  {
    set i | 0 <= i < |ps| :: Eth(ps[i].k)
  }

  /** Splitting off the first pick. */
  lemma SourcesTargetsCons(ps: seq<Pick>)
    requires |ps| > 0
    ensures Sources(ps) == {ps[0].entry} + Sources(ps[1..])
    ensures Targets(ps) == {Eth(ps[0].k)} + Targets(ps[1..])
  {
    var rest := ps[1..];
    forall x | x in Sources(ps) ensures x in {ps[0].entry} + Sources(rest) {
      var i :| 0 <= i < |ps| && x == ps[i].entry;
      if i > 0 { assert rest[i - 1] == ps[i]; }
    }
    forall x | x in Sources(rest) ensures x in Sources(ps) {
      var i :| 0 <= i < |rest| && x == rest[i].entry;
      assert rest[i] == ps[i + 1];
    }
    forall x | x in Targets(ps) ensures x in {Eth(ps[0].k)} + Targets(rest) {
      var i :| 0 <= i < |ps| && x == Eth(ps[i].k);
      if i > 0 { assert rest[i - 1] == ps[i]; }
    }
    forall x | x in Targets(rest) ensures x in Targets(ps) {
      var i :| 0 <= i < |rest| && x == Eth(rest[i].k);
      assert rest[i] == ps[i + 1];
    }
  }

  /**
    The picks can all be carried out on table `m`: each interface exists,
    each interface is picked once, each new name is free, the new names are
    pairwise distinct and none of them is a picked interface.
   */
  predicate Feasible(m: Links, ps: seq<Pick>)
  {
    && (forall i :: 0 <= i < |ps| ==> ps[i].entry in m && Eth(ps[i].k) !in m)
    && (forall i, j :: 0 <= i < j < |ps| ==> ps[i].entry != ps[j].entry && ps[i].k != ps[j].k)
    && (forall i, j :: 0 <= i < |ps| && 0 <= j < |ps| ==> ps[i].entry != Eth(ps[j].k))
  }

  /** The first pick moves its interface and leaves the rest feasible. */
  lemma FeasibleStep(m: Links, ps: seq<Pick>)
    requires Feasible(m, ps) && |ps| > 0
    ensures var m1 := Apply(m, LinkNameChange(0, ps[0].entry, Some(Eth(ps[0].k))));
            && m1.Keys == m.Keys - {ps[0].entry} + {Eth(ps[0].k)}
            && Feasible(m1, ps[1..])
  {
    var p := ps[0];
    var m1 := Apply(m, LinkNameChange(0, p.entry, Some(Eth(p.k))));
    assert RenameTarget(0, Some(Eth(p.k))) == Eth(p.k);
    LinkNameChangeEffect(m, 0, p.entry, Some(Eth(p.k)));
    var rest := ps[1..];
    forall i | 0 <= i < |rest| ensures rest[i].entry in m1 && Eth(rest[i].k) !in m1 {
      assert rest[i] == ps[i + 1];
      EthInjective(rest[i].k, p.k);
    }
    forall i, j | 0 <= i < j < |rest| ensures rest[i].entry != rest[j].entry && rest[i].k != rest[j].k {
      assert rest[i] == ps[i + 1] && rest[j] == ps[j + 1];
    }
    forall i, j | 0 <= i < |rest| && 0 <= j < |rest| ensures rest[i].entry != Eth(rest[j].k) {
      assert rest[i] == ps[i + 1] && rest[j] == ps[j + 1];
    }
  }

  /** Moving `e` to `t` and then the rest's sources to their targets, when `t` is not among those sources. */
  lemma RenameThenRest(keys: set<string>, e: string, t: string, srcs: set<string>, tgts: set<string>)
    requires t !in srcs
    ensures keys - {e} + {t} - srcs + tgts == keys - ({e} + srcs) + ({t} + tgts)
  {
  }

  /** A name that no pick renames, other than `temp0`, keeps its link through the picks. */
  lemma {:induction false} PickCommandsFrame(m: Links, ps: seq<Pick>, n: string)
    requires Feasible(m, ps)
    requires n in m && n != Temp(0) && forall i :: 0 <= i < |ps| ==> ps[i].entry != n
    ensures n in Apply(m, PickCommands(ps)) && Apply(m, PickCommands(ps))[n] == m[n]
    decreases |ps|
  {
    if |ps| > 0 {
      var p := ps[0];
      var cmds0 := LinkNameChange(0, p.entry, Some(Eth(p.k)));
      ApplyConcat(m, cmds0, PickCommands(ps[1..]));
      FeasibleStep(m, ps);
      assert RenameTarget(0, Some(Eth(p.k))) == Eth(p.k);
      LinkNameChangeEffect(m, 0, p.entry, Some(Eth(p.k)));
      var m1 := Apply(m, cmds0);
      assert n != p.entry && n != Eth(p.k);
      assert n in m1 && m1[n] == m[n];
      var rest := ps[1..];
      forall i | 0 <= i < |rest| ensures rest[i].entry != n {
        assert rest[i] == ps[i + 1];
      }
      PickCommandsFrame(m1, rest, n);
    }
  }

  /** Each pick's link ends under its own `eth<k>`, with its own hardware address, and down. */
  lemma {:induction false} PickCommandsMoves(m: Links, ps: seq<Pick>)
    requires Feasible(m, ps)
    ensures var m' := Apply(m, PickCommands(ps));
            forall i :: 0 <= i < |ps| ==> Eth(ps[i].k) in m' && m'[Eth(ps[i].k)] == Link(m[ps[i].entry].mac, false)
    decreases |ps|
  {
    if |ps| > 0 {
      var p := ps[0];
      var cmds0 := LinkNameChange(0, p.entry, Some(Eth(p.k)));
      ApplyConcat(m, cmds0, PickCommands(ps[1..]));
      FeasibleStep(m, ps);
      assert RenameTarget(0, Some(Eth(p.k))) == Eth(p.k);
      LinkNameChangeEffect(m, 0, p.entry, Some(Eth(p.k)));
      TempNotEth(0, p.k);
      var m1 := Apply(m, cmds0);
      var rest := ps[1..];
      var m' := Apply(m1, PickCommands(rest));
      assert m1[Eth(p.k)] == Link(m[p.entry].mac, false);
      forall i | 0 <= i < |rest| ensures rest[i].entry != Eth(p.k) {
        assert rest[i] == ps[i + 1];
      }
      PickCommandsFrame(m1, rest, Eth(p.k));
      PickCommandsMoves(m1, rest);
      forall i | 1 <= i < |ps| ensures Eth(ps[i].k) in m' && m'[Eth(ps[i].k)] == Link(m[ps[i].entry].mac, false) {
        assert ps[i] == rest[i - 1];
        assert ps[i].entry != p.entry && ps[i].entry != Eth(p.k);
        assert m1[ps[i].entry].mac == m[ps[i].entry].mac;
      }
    }
  }

  /**
    Feasible picks rename exactly their interfaces to exactly their new
    names: each pick's link, with its own hardware address, ends under its
    own `eth<k>`, left down.
   */
  lemma {:induction false} PickCommandsKeys(m: Links, ps: seq<Pick>)
    requires Feasible(m, ps)
    ensures Apply(m, PickCommands(ps)).Keys == m.Keys - Sources(ps) + Targets(ps)
    ensures var m' := Apply(m, PickCommands(ps));
            forall i :: 0 <= i < |ps| ==> Eth(ps[i].k) in m' && m'[Eth(ps[i].k)] == Link(m[ps[i].entry].mac, false)
    decreases |ps|
  {
    PickCommandsMoves(m, ps);
    if |ps| > 0 {
      var p := ps[0];
      var cmds0 := LinkNameChange(0, p.entry, Some(Eth(p.k)));
      ApplyConcat(m, cmds0, PickCommands(ps[1..]));
      FeasibleStep(m, ps);
      var m1 := Apply(m, cmds0);
      PickCommandsKeys(m1, ps[1..]);
      var rest := ps[1..];
      SourcesTargetsCons(ps);
      assert Eth(p.k) !in Sources(rest) by {
        forall i | 0 <= i < |rest| ensures rest[i].entry != Eth(p.k) {
          assert rest[i] == ps[i + 1];
        }
      }
      RenameThenRest(m.Keys, p.entry, Eth(p.k), Sources(rest), Targets(rest));
    } else {
      assert Sources(ps) == {} && Targets(ps) == {};
    }
  }

  /** The picks made against the snapshot of table `m` can all be carried out on `m`. */
  lemma PicksFeasible(m: Links, order: seq<string>)
    requires IsOrder(order, m.Keys)
    ensures Keyed(Enumerate(m), order)
    ensures Feasible(m, FallbackPicks(Enumerate(m), order, 0))
  {
    var snap := Enumerate(m);
    var ps := FallbackPicks(snap, order, 0);
    var u := Unnamed(snap, order);
    FallbackPicksEntries(snap, order, 0);
    FallbackPicksIncreasing(snap, order, 0);
    forall i | 0 <= i < |ps| ensures ps[i].entry in m && Eth(ps[i].k) !in m {
      assert ps[i].entry == u[i] && u[i] in u;
    }
    forall i, j | 0 <= i < j < |ps| ensures ps[i].entry != ps[j].entry && ps[i].k != ps[j].k {
      assert ps[i].entry == u[i] && ps[j].entry == u[j];
    }
    forall i, j | 0 <= i < |ps| && 0 <= j < |ps| ensures ps[i].entry != Eth(ps[j].k) {
      assert ps[i].entry == u[i] && u[i] in u;
      assert !Contains(snap[u[i]].name, "eth");
      EthContainsEth(ps[j].k);
    }
  }

  /** Every candidate is picked. */
  lemma CandidatesPicked(snapshot: map<string, Iface>, order: seq<string>)
    requires Keyed(snapshot, order)
    ensures forall x :: x in Unnamed(snapshot, order) ==> x in Sources(FallbackPicks(snapshot, order, 0))
  {
    var ps := FallbackPicks(snapshot, order, 0);
    var u := Unnamed(snapshot, order);
    FallbackPicksEntries(snapshot, order, 0);
    forall x | x in u ensures x in Sources(ps) {
      var i :| 0 <= i < |u| && u[i] == x;
      assert ps[i].entry == x;
    }
  }

  /** A name of table `m` that phase 3 does not pick already contains `eth`. */
  lemma UnpickedHasEth(m: Links, order: seq<string>, n: string)
    requires IsOrder(order, m.Keys)
    requires n in m && n !in Sources(FallbackPicks(Enumerate(m), order, 0))
    ensures Contains(n, "eth")
  {
    var snap := Enumerate(m);
    CandidatesPicked(snap, order);
    assert n in order && n !in Unnamed(snap, order);
    assert snap[n].name == n;
  }

  /**
    Phase 3 moves each picked interface's link, with its own hardware
    address, to the `eth<k>` chosen for it, and leaves it down.
   */
  lemma FallbackMoves(m: Links, order: seq<string>)
    requires IsOrder(order, m.Keys)
    ensures Keyed(Enumerate(m), order)
    ensures var m' := Apply(m, FallbackPlan(Enumerate(m), order));
            var ps := FallbackPicks(Enumerate(m), order, 0);
            forall i :: 0 <= i < |ps| ==>
              && ps[i].entry in m && Eth(ps[i].k) in m'
              && m'[Eth(ps[i].k)] == Link(m[ps[i].entry].mac, false)
  {
    PicksFeasible(m, order);
    PickCommandsKeys(m, FallbackPicks(Enumerate(m), order, 0));
  }

  /**
    Phase 3 on table `m`, visiting the snapshot's keys in `order`: the number
    of links is unchanged, and afterwards every name contains `eth` -- the
    names that lacked it are replaced by fresh `eth<k>` names.
   */
  lemma FallbackEffect(m: Links, order: seq<string>)
    requires IsOrder(order, m.Keys)
    ensures Keyed(Enumerate(m), order)
    ensures var m' := Apply(m, FallbackPlan(Enumerate(m), order));
            && |m'| == |m|
            && forall n :: n in m' ==> Contains(n, "eth")
  {
    var snap := Enumerate(m);
    PicksFeasible(m, order);
    var ps := FallbackPicks(snap, order, 0);
    PickCommandsKeys(m, ps);
    ApplyKeepsLinks(m, FallbackPlan(snap, order));
    var m' := Apply(m, FallbackPlan(snap, order));
    forall n | n in m' ensures Contains(n, "eth") {
      if n in Targets(ps) {
        var i :| 0 <= i < |ps| && n == Eth(ps[i].k);
        EthContainsEth(ps[i].k);
      } else {
        UnpickedHasEth(m, order, n);
      }
    }
  }
}

=== FILE: ifcfg.dfy ===
/**
  The configuration catalog: the ifcfg files under the network-scripts
  directory, read into upper-cased `KEY -> VALUE` maps.
 */
module Ifcfg {
  import opened Results
  import opened PyStr
  import opened PyDict

  /** One parsed ifcfg file: upper-cased keys to upper-cased values. */
  type ConfigMap = map<string, string>

  /** The exception `open()` raises for a globbed file that cannot be read. */
  datatype ReadError = IOError(path: string)

  // ---------------------------------------------------------------------------
  // parse_config
  // ---------------------------------------------------------------------------

  /** The key a `KEY=VALUE` line defines: the text before the first `=`, upper-cased and stripped. */
  function LineKey(line: string): string
  {
    Strip(Upper(FieldBefore(line, '=')), Whitespace)
  }

  /** The value such a line defines: the text between its first and second `=`, upper-cased and stripped. */
  function LineValue(line: string): string
    requires '=' in line
  {
    Strip(Upper(FieldBefore(line[IndexOf(line, '=') + 1..], '=')), Whitespace)
  }

  /**
    One line of `parse_config`'s loop: split at every `=`; with at least two
    pieces, the first two, upper-cased and stripped, are the key and the value.
   */
  function LineEntry(line: string): (e: Option<(string, string)>)
    ensures e.Some? <==> '=' in line
    ensures e.Some? ==> e.value == (LineKey(line), LineValue(line))
  {
    var splitLine := Split(line, '=');
    if |splitLine| > 1 then
      SplitSecond(line, '=');
      Some((Strip(Upper(splitLine[0]), Whitespace), Strip(Upper(splitLine[1]), Whitespace)))
    else None
  }

  /** The loop of `parse_config` over a list of lines; a later line overwrites an earlier key. */
  function ParseLines(lines: seq<string>): ConfigMap
  {
    Assign(seq(|lines|, i requires 0 <= i < |lines| => LineEntry(lines[i])))
  }

  /** `parse_config`: the text cut at every newline, then each line parsed in turn. */
  function ParseConfig(text: string): ConfigMap
  {
    ParseLines(Split(text, '\n'))
  }

  /** The line at index `i` defines key `k`. */
  predicate Defines(lines: seq<string>, i: int, k: string)
  {
    0 <= i < |lines| && '=' in lines[i] && LineKey(lines[i]) == k
  }

  /** A key is present exactly when some line with an `=` defines it. */
  lemma ParseLinesKeys(lines: seq<string>, k: string)
    ensures k in ParseLines(lines) <==> exists i :: Defines(lines, i, k)
  {
    var es := seq(|lines|, i requires 0 <= i < |lines| => LineEntry(lines[i]));
    AssignKeys(es, k);
    assert forall i :: Sets(es, i, k) <==> Defines(lines, i, k);
  }

  /** The value of a key is the one its last defining line gives: later lines win. */
  lemma ParseLinesLastWins(lines: seq<string>, i: int, k: string)
    requires Defines(lines, i, k)
    requires forall j :: i < j < |lines| ==> !Defines(lines, j, k)
    ensures k in ParseLines(lines) && ParseLines(lines)[k] == LineValue(lines[i])
  {
    var es := seq(|lines|, i requires 0 <= i < |lines| => LineEntry(lines[i]));
    assert forall j :: Sets(es, j, k) <==> Defines(lines, j, k);
    AssignLastWins(es, i, k);
  }

  // ---------------------------------------------------------------------------
  // get_config_files and get_config
  // ---------------------------------------------------------------------------

  /** A VLAN definition: a path containing `:`. */
  predicate IsVlanPath(path: string) { ':' in path }

  /**
    `get_config_files`: the globbed paths in order, VLAN paths skipped, every
    other path read through `contents`; a path `contents` lacks makes `open()`
    raise, which ends the loop.
   */
  function GetConfigFiles(glob: seq<string>, contents: map<string, string>): (r: Result<map<string, string>, ReadError>)
    ensures r.Ok? <==> forall i :: 0 <= i < |glob| && !IsVlanPath(glob[i]) ==> glob[i] in contents
    ensures r.Ok? ==> forall p :: p in r.value <==> p in glob && !IsVlanPath(p)
    ensures r.Ok? ==> forall p :: p in r.value ==> p in contents && r.value[p] == contents[p]
    ensures r.Err? ==> exists i :: 0 <= i < |glob| && glob[i] == r.error.path
                                   && !IsVlanPath(glob[i]) && glob[i] !in contents
                                   && forall j :: 0 <= j < i && !IsVlanPath(glob[j]) ==> glob[j] in contents
    decreases |glob|
  {
    if |glob| == 0 then Ok(map[])
    else
      var entry := glob[0];
      var rest := GetConfigFiles(glob[1..], contents);
      assert forall i :: 1 <= i < |glob| ==> glob[i] == glob[1..][i - 1];
      if IsVlanPath(entry) then rest
      else if entry !in contents then Err(IOError(entry))
      else match rest
        case Err(e) =>
          assert exists i :: 0 <= i < |glob[1..]| && glob[1..][i] == e.path
                             && !IsVlanPath(glob[1..][i]) && glob[1..][i] !in contents
                             && forall j :: 0 <= j < i && !IsVlanPath(glob[1..][j]) ==> glob[1..][j] in contents;
          var i :| 0 <= i < |glob[1..]| && glob[1..][i] == e.path
                   && !IsVlanPath(glob[1..][i]) && glob[1..][i] !in contents
                   && forall j :: 0 <= j < i && !IsVlanPath(glob[1..][j]) ==> glob[1..][j] in contents;
          assert glob[i + 1] == e.path;
          Err(e)
        case Ok(files) => Ok(files[entry := contents[entry]])
  }

  /** `get_config`: every read file parsed, keyed by its path. */
  function GetConfig(glob: seq<string>, contents: map<string, string>): (r: Result<map<string, ConfigMap>, ReadError>)
    ensures r.Ok? <==> GetConfigFiles(glob, contents).Ok?
    ensures r.Ok? ==> forall p :: p in r.value <==> p in glob && !IsVlanPath(p)
    ensures r.Ok? ==> forall p :: p in r.value ==> p in contents && r.value[p] == ParseConfig(contents[p])
  {
    match GetConfigFiles(glob, contents)
    case Err(e) => Err(e)
    case Ok(files) => Ok(map p | p in files :: ParseConfig(files[p]))
  }
}

=== FILE: iplink.dfy ===
/**
  The interface enumerator: `get_interface_dict`, which reads the text of
  `ip link show` and builds a dict from interface name to
  `(hwaddr, connection, interface)`.
 */
module IpLink {
  import opened Results
  import opened PyStr
  import opened PyDict

  /**
    A value of the interface dict: the upper-cased hardware address, whether
    the name line reported `LOWER_UP` (the script stores `True` or `None`,
    here `true` or `false`), and the interface name.
   */
  datatype Iface = Iface(hwaddr: string, linkUp: bool, name: string)

  /** `split_line[1]` on a line with fewer than two fields raises `IndexError`. */
  datatype ParseError = IndexError(line: nat)

  /**
    What the loop body can read from one line: nothing when it has fewer than
    two fields; otherwise the second field read as a name (stripped) and as an
    address (upper-cased, stripped), and whether the line mentions `LOWER_UP`.
   */
  datatype LineView = Short | Line(name: string, addr: string, lowerUp: bool)

  /** `[entry.rstrip(':') for entry in line.split()]`. */
  function Fields(line: string): (f: seq<string>)
    ensures |f| == |Tokens(line)|
  {
    var toks := Tokens(line);
    seq(|toks|, i requires 0 <= i < |toks| => RStrip(toks[i], {':'}))
  }

  /** The reading of one line of `ip link show` output. */
  function View(line: string): LineView
  {
    var splitLine := Fields(line);
    if |splitLine| < 2 then Short
    else Line(Strip(splitLine[1], Whitespace), Strip(Upper(splitLine[1]), Whitespace), Contains(line, "LOWER_UP"))
  }

  /** A line's reading: short exactly when it has fewer than two fields; an address without lower case. */
  lemma ViewSpec(line: string)
    ensures View(line).Short? <==> |Tokens(line)| < 2
    ensures View(line).Line? ==> NoLowerCase(View(line).addr)
    ensures View(line).Line? ==> (View(line).lowerUp <==> Contains(line, "LOWER_UP"))
  {
    if |Tokens(line)| >= 2 {
      var f := Fields(line)[1];
      UpperIsUpper(f);
      StripNoLowerCase(Upper(f), Whitespace);
    }
  }

  /** Every line from index 2 up to (not including) `n` has a second field. */
  predicate WellFormedBefore(views: seq<LineView>, n: int)
  {
    forall j :: 2 <= j < n && j < |views| ==> views[j].Line?
  }

  /** The number of complete (name line, address line) pairs after the two loopback lines. */
  function PairCount(n: nat): nat
  {
    if n <= 2 then 0 else (n - 2) / 2
  }

  /** How the pair count moves as the loop index advances past line `n`. */
  lemma PairCountStep(n: nat)
    ensures n >= 2 && n % 2 == 1 ==> PairCount(n + 1) == PairCount(n) + 1 && n == 3 + 2 * PairCount(n)
    ensures (n < 2 || n % 2 == 0) ==> PairCount(n + 1) == PairCount(n)
  {
  }

  /** The first `p` pairs exist and are readable. */
  predicate ValidPairs(views: seq<LineView>, p: nat)
  {
    p <= PairCount(|views|) && WellFormedBefore(views, 2 + 2 * p)
  }

  /** The dict value pair `q` gives: name line `2 + 2q`, address line `3 + 2q`. */
  function PairEntry(views: seq<LineView>, q: nat): Iface
    requires 3 + 2 * q < |views| && views[2 + 2 * q].Line? && views[3 + 2 * q].Line?
  {
    Iface(views[3 + 2 * q].addr, views[2 + 2 * q].lowerUp, views[2 + 2 * q].name)
  }

  /** The assignments the first `p` pairs perform on the dict, in order. */
  function PairAssignments(views: seq<LineView>, p: nat): (es: seq<Option<(string, Iface)>>)
    requires ValidPairs(views, p)
    ensures |es| == p
    ensures forall q :: 0 <= q < p ==>
              (views[2 + 2 * q].Line? && views[3 + 2 * q].Line? && es[q] == Some((views[2 + 2 * q].name, PairEntry(views, q))))
  {
    seq(p, q requires 0 <= q < p => Some((views[2 + 2 * q].name, PairEntry(views, q))))
  }

  /** The dict the first `p` pairs build. */
  function PairMap(views: seq<LineView>, p: nat): map<string, Iface>
    requires ValidPairs(views, p)
  {
    Assign(PairAssignments(views, p))
  }

  /** The dict after one more pair is the dict before it, updated at that pair's name. */
  lemma PairMapStep(views: seq<LineView>, p: nat)
    requires ValidPairs(views, p + 1)
    ensures ValidPairs(views, p)
    ensures PairMap(views, p + 1) == PairMap(views, p)[views[2 + 2 * p].name := PairEntry(views, p)]
  {
    assert PairAssignments(views, p + 1)[..p] == PairAssignments(views, p);
  }

  /**
    What the loop of `get_interface_dict` knows before line `idx`: every
    line from index 2 on was readable, the dict holds the pairs completed so
    far, and after a name line the current name and link flag are that
    line's.
   */
  predicate LoopState(views: seq<LineView>, idx: nat, interfaces: map<string, Iface>, iface: string, connection: bool)
  {
    && idx <= |views|
    && WellFormedBefore(views, idx)
    && ValidPairs(views, PairCount(idx))
    && interfaces == PairMap(views, PairCount(idx))
    && (idx > 2 && idx % 2 == 1 ==> iface == views[idx - 1].name && connection == views[idx - 1].lowerUp)
  }

  /** A name line sets the current name and link flag. */
  lemma NameLineStep(views: seq<LineView>, idx: nat, interfaces: map<string, Iface>, iface: string, connection: bool)
    requires LoopState(views, idx, interfaces, iface, connection)
    requires 1 < idx < |views| && idx % 2 == 0 && views[idx].Line?
    ensures LoopState(views, idx + 1, interfaces, views[idx].name, views[idx].lowerUp)
  {
    PairCountStep(idx);
  }

  /** An address line stores the current name's entry. */
  lemma AddressLineStep(views: seq<LineView>, idx: nat, interfaces: map<string, Iface>, iface: string, connection: bool)
    requires LoopState(views, idx, interfaces, iface, connection)
    requires 1 < idx < |views| && idx % 2 == 1 && views[idx].Line?
    ensures LoopState(views, idx + 1, interfaces[iface := Iface(views[idx].addr, connection, iface)], iface, connection)
  {
    PairCountStep(idx);
    PairMapStep(views, PairCount(idx));
  }

  /** The two loopback lines change nothing. */
  lemma LoopbackStep(views: seq<LineView>, idx: nat, interfaces: map<string, Iface>, iface: string, connection: bool)
    requires LoopState(views, idx, interfaces, iface, connection)
    requires idx <= 1 && idx < |views|
    ensures LoopState(views, idx + 1, interfaces, iface, connection)
  {
    PairCountStep(idx);
  }

  /**
    The loop of `get_interface_dict` over the readings of the lines: lines 0
    and 1 (loopback) are skipped; an even line sets the current name and link
    flag; an odd line stores the current name's entry.
   */
  method ReadPairs(views: seq<LineView>) returns (r: Result<map<string, Iface>, ParseError>)
    ensures r.Ok? <==> WellFormedBefore(views, |views|)
    ensures r.Ok? ==> ValidPairs(views, PairCount(|views|)) && r.value == PairMap(views, PairCount(|views|))
    ensures r.Err? ==> var j := r.error.line;
                       2 <= j < |views| && views[j].Short? && WellFormedBefore(views, j)
  {
    var interfaces: map<string, Iface> := map[];
    var iface: string := [];
    var connection := false;
    var idx := 0;
    while idx < |views|
      invariant LoopState(views, idx, interfaces, iface, connection)
    {
      var line := views[idx];
      if idx > 1 {
        if line.Short? {
          return Err(IndexError(idx));
        }
        if idx % 2 == 0 {
          NameLineStep(views, idx, interfaces, iface, connection);
          iface := line.name;
          connection := line.lowerUp;
        } else {
          AddressLineStep(views, idx, interfaces, iface, connection);
          interfaces := interfaces[iface := Iface(line.addr, connection, iface)];
        }
      } else {
        LoopbackStep(views, idx, interfaces, iface, connection);
      }
      idx := idx + 1;
    }
    return Ok(interfaces);
  }

  /** The readings of all lines. */
  function Views(lines: seq<string>): (vs: seq<LineView>)
    ensures |vs| == |lines|
    ensures forall j :: 0 <= j < |lines| ==> vs[j] == View(lines[j])
  {
    seq(|lines|, j requires 0 <= j < |lines| => View(lines[j]))
  }

  /** `get_interface_dict`: read each line of `ip link show` output, then run the loop. */
  method GetInterfaceDict(lines: seq<string>) returns (r: Result<map<string, Iface>, ParseError>)
    ensures r.Ok? <==> forall j :: 2 <= j < |lines| ==> |Tokens(lines[j])| >= 2
    ensures r.Ok? ==> ValidPairs(Views(lines), PairCount(|lines|))
                      && r.value == PairMap(Views(lines), PairCount(|lines|))
    ensures r.Err? ==> && 2 <= r.error.line < |lines| && |Tokens(lines[r.error.line])| < 2
                       && forall j :: 2 <= j < r.error.line ==> |Tokens(lines[j])| >= 2
  {
    var views := Views(lines);
    forall j | 0 <= j < |lines|
      ensures views[j].Short? <==> |Tokens(lines[j])| < 2
    {
      ViewSpec(lines[j]);
    }
    r := ReadPairs(views);
  }

  /** An interface appears in the dict exactly when some pair names it. */
  lemma PairMapKeys(views: seq<LineView>, p: nat, k: string)
    requires ValidPairs(views, p)
    ensures k in PairMap(views, p) <==> exists q :: 0 <= q < p && views[2 + 2 * q].Line? && views[2 + 2 * q].name == k
  {
    var es := PairAssignments(views, p);
    AssignKeys(es, k);
    if k in PairMap(views, p) {
      var q :| Sets(es, q, k);
      assert 0 <= q < p && views[2 + 2 * q].Line? && views[2 + 2 * q].name == k;
    }
    if exists q :: 0 <= q < p && views[2 + 2 * q].Line? && views[2 + 2 * q].name == k {
      var q :| 0 <= q < p && views[2 + 2 * q].Line? && views[2 + 2 * q].name == k;
      assert Sets(es, q, k);
    }
  }

  /** A name listed twice keeps the entry of its last pair. */
  lemma PairMapLastWins(views: seq<LineView>, p: nat, q: nat, k: string)
    requires ValidPairs(views, p)
    requires q < p && views[2 + 2 * q].Line? && views[2 + 2 * q].name == k
    requires forall q' :: q < q' < p && views[2 + 2 * q'].Line? ==> views[2 + 2 * q'].name != k
    ensures k in PairMap(views, p) && PairMap(views, p)[k] == PairEntry(views, q)
  {
    var es := PairAssignments(views, p);
    assert forall j :: q < j < |es| ==> !Sets(es, j, k);
    AssignLastWins(es, q, k);
  }

  /**
    Every entry of the dict is keyed by its own third component, and comes
    from a pair whose name line and address line it repeats.
   */
  lemma PairMapEntries(views: seq<LineView>, p: nat, k: string) returns (q: nat)
    requires ValidPairs(views, p)
    requires k in PairMap(views, p)
    ensures q < p && views[2 + 2 * q].Line? && views[3 + 2 * q].Line?
    ensures PairMap(views, p)[k] == PairEntry(views, q)
    ensures PairMap(views, p)[k].name == k
  {
    var es := PairAssignments(views, p);
    var i := AssignValueSource(es, k);
    q := i;
  }

  /**
    Over real output lines: each entry's hardware address has no lower-case
    letter, and the entry is the one of a pair whose name line gives its key;
    its link flag is set exactly when that name line mentions `LOWER_UP`.
   */
  lemma InterfaceDictEntries(lines: seq<string>, p: nat, k: string)
    requires ValidPairs(Views(lines), p)
    ensures k in PairMap(Views(lines), p) ==> NoLowerCase(PairMap(Views(lines), p)[k].hwaddr)
    ensures k in PairMap(Views(lines), p) ==>
              exists q :: && 0 <= q < p && 3 + 2 * q < |lines|
                          && Views(lines)[2 + 2 * q].Line? && Views(lines)[3 + 2 * q].Line?
                          && Views(lines)[2 + 2 * q].name == k
                          && PairMap(Views(lines), p)[k] == PairEntry(Views(lines), q)
                          && PairMap(Views(lines), p)[k].name == k
                          && (PairMap(Views(lines), p)[k].linkUp <==> Contains(lines[2 + 2 * q], "LOWER_UP"))
  {
    if k in PairMap(Views(lines), p) {
      var q := PairMapEntries(Views(lines), p, k);
      ViewSpec(lines[2 + 2 * q]);
      ViewSpec(lines[3 + 2 * q]);
    }
  }
}

=== FILE: linktable.dfy ===
/**
  The kernel's link table as the script sees it through `ip link`: a map from
  interface name to the link's hardware address and administrative state,
  changed by the three `ip link set` commands the script issues.
 */
module LinkTable {
  import opened PyStr
  import IpLink

  /** One network link: its hardware address and whether it is up. */
  datatype Link = Link(mac: string, up: bool)

  /**
    The links present, by their current name; a name names at most one link.
    Only the links `ip link show` prints after the loopback pair are here,
    each under the device name its name line prints, with one address line
    giving its hardware address.
   */
  type Links = map<string, Link>

  /** `ip link set dev <dev> down`, `ip link set dev <dev> name <newName>`, `ip link set dev <dev> up`. */
  datatype Cmd = Down(dev: string) | SetName(dev: string, newName: string) | Up(dev: string)

  /**
    The effect of one command. A command naming a device that does not exist
    fails and changes nothing; a rename also fails when the new name is
    taken. The script never looks at the exit status, so a failure is simply
    a no-op.
   */
  function Step(m: Links, c: Cmd): (m': Links)
    ensures c.Down? && c.dev in m ==> m' == m[c.dev := m[c.dev].(up := false)]
    ensures c.Up? && c.dev in m ==> m' == m[c.dev := m[c.dev].(up := true)]
    ensures c.SetName? && c.dev in m && c.newName !in m ==>
              c.newName in m' && m'[c.newName] == m[c.dev] && c.dev !in m'
              && forall n :: n != c.dev && n != c.newName ==> (n in m' <==> n in m) && (n in m ==> m'[n] == m[n])
    ensures (c.dev !in m || (c.SetName? && c.newName in m)) ==> m' == m
  {
    match c
    case Down(d) => if d in m then m[d := m[d].(up := false)] else m
    case Up(d) => if d in m then m[d := m[d].(up := true)] else m
    case SetName(d, n) => if d in m && n !in m then (m - {d})[n := m[d]] else m
  }

  /** The commands run one after another. */
  function Apply(m: Links, cmds: seq<Cmd>): Links
    decreases |cmds|
  {
    if |cmds| == 0 then m else Apply(Step(m, cmds[0]), cmds[1..])
  }

  /** Three commands in a row. */
  lemma ApplyThree(m: Links, a: Cmd, b: Cmd, c: Cmd)
    ensures Apply(m, [a, b, c]) == Step(Step(Step(m, a), b), c)
  {
    assert [a, b, c][1..] == [b, c];
    assert [b, c][1..] == [c];
    assert [c][1..] == [];
    assert Apply(m, [a, b, c]) == Apply(Step(m, a), [b, c]);
    assert Apply(Step(m, a), [b, c]) == Apply(Step(Step(m, a), b), [c]);
    assert Apply(Step(Step(m, a), b), [c]) == Apply(Step(Step(Step(m, a), b), c), []);
  }

  /** Down `entry`, rename it to `t`, up `u`: a successful rename moves the link, up only if `t` is `u`. */
  lemma DownRenameUpMoves(m: Links, entry: string, t: string, u: string)
    requires entry in m && t !in m
    ensures var m' := Apply(m, [Down(entry), SetName(entry, t), Up(u)]);
            m'.Keys == m.Keys - {entry} + {t} && m'[t] == Link(m[entry].mac, t == u)
  {
    ApplyThree(m, Down(entry), SetName(entry, t), Up(u));
    var m1 := Step(m, Down(entry));
    var m2 := Step(m1, SetName(entry, t));
    assert m2.Keys == m.Keys - {entry} + {t};
    assert m2[t] == Link(m[entry].mac, false);
  }

  /** A failed rename changes no name; `entry` ends down unless it is `u`. */
  lemma DownRenameUpBlocked(m: Links, entry: string, t: string, u: string)
    requires !(entry in m && t !in m)
    ensures var m' := Apply(m, [Down(entry), SetName(entry, t), Up(u)]);
            m'.Keys == m.Keys && (entry in m ==> m'[entry] == Link(m[entry].mac, entry == u))
  {
    ApplyThree(m, Down(entry), SetName(entry, t), Up(u));
    var m1 := Step(m, Down(entry));
    assert m1.Keys == m.Keys;
    assert Step(m1, SetName(entry, t)) == m1;
  }

  /**
    Every other link keeps its state, except that a link named `u` is
    brought up; when the rename fails, that includes a link already named `t`.
   */
  lemma DownRenameUpOthers(m: Links, entry: string, t: string, u: string)
    ensures var m' := Apply(m, [Down(entry), SetName(entry, t), Up(u)]);
            forall n :: n in m' && n != entry && (n != t || !(entry in m && t !in m)) ==>
              n in m && m'[n] == m[n].(up := m[n].up || n == u)
  {
    ApplyThree(m, Down(entry), SetName(entry, t), Up(u));
    var m1 := Step(m, Down(entry));
    var m2 := Step(m1, SetName(entry, t));
    var m3 := Step(m2, Up(u));
    forall n | n in m3 && n != entry && (n != t || !(entry in m && t !in m))
      ensures n in m && m3[n] == m[n].(up := m[n].up || n == u)
    {
      assert n in m2 && m2[n] == m1[n];
      assert n in m1 && m1[n] == m[n];
    }
  }

  /** Running two command lists in turn is running their concatenation. */
  lemma {:induction false} ApplyConcat(m: Links, a: seq<Cmd>, b: seq<Cmd>)
    ensures Apply(m, a + b) == Apply(Apply(m, a), b)
    decreases |a|
  {
    if |a| > 0 {
      assert (a + b)[0] == a[0];
      assert (a + b)[1..] == a[1..] + b;
      ApplyConcat(Step(m, a[0]), a[1..], b);
    } else {
      assert a + b == b;
    }
  }

  /** The set of hardware addresses present. */
  function Macs(m: Links): set<string>
  {
    set n | n in m :: m[n].mac
  }

  /** No command creates or destroys a link, or changes a hardware address. */
  lemma StepKeepsLinks(m: Links, c: Cmd)
    ensures |Step(m, c)| == |m|
    ensures Macs(Step(m, c)) == Macs(m)
  {
    var m' := Step(m, c);
    if c.SetName? && c.dev in m && c.newName !in m {
      assert m'.Keys == m.Keys - {c.dev} + {c.newName};
      forall x | x in Macs(m') ensures x in Macs(m) {
        var n :| n in m' && m'[n].mac == x;
        if n == c.newName { assert m[c.dev].mac == x; } else { assert m[n].mac == x; }
      }
      forall x | x in Macs(m) ensures x in Macs(m') {
        var n :| n in m && m[n].mac == x;
        if n == c.dev { assert m'[c.newName].mac == x; } else { assert m'[n].mac == x; }
      }
    } else if c.dev in m && !c.SetName? {
      assert m'.Keys == m.Keys;
      forall x | x in Macs(m') ensures x in Macs(m) {
        var n :| n in m' && m'[n].mac == x;
        assert m[n].mac == x;
      }
      forall x | x in Macs(m) ensures x in Macs(m') {
        var n :| n in m && m[n].mac == x;
        assert m'[n].mac == x;
      }
    }
  }

  /** Any command list keeps the number of links and the set of hardware addresses. */
  lemma {:induction false} ApplyKeepsLinks(m: Links, cmds: seq<Cmd>)
    ensures |Apply(m, cmds)| == |m|
    ensures Macs(Apply(m, cmds)) == Macs(m)
    decreases |cmds|
  {
    if |cmds| > 0 {
      StepKeepsLinks(m, cmds[0]);
      ApplyKeepsLinks(Step(m, cmds[0]), cmds[1..]);
    }
  }

  /**
    What `get_interface_dict` returns for a link table: every link keyed by
    its name, with the upper-cased address, the link flag and the name.
   */
  function Enumerate(m: Links): (d: map<string, IpLink.Iface>)
    ensures d.Keys == m.Keys
    ensures forall n :: n in d ==> d[n].name == n && NoLowerCase(d[n].hwaddr)
    ensures forall n :: n in d ==> d[n].hwaddr == Upper(m[n].mac) && d[n].linkUp == m[n].up
  {
    forall n | n in m ensures NoLowerCase(Upper(m[n].mac)) { UpperIsUpper(m[n].mac); }
    map n | n in m :: IpLink.Iface(Upper(m[n].mac), m[n].up, n)
  }

  /** No name occurs twice in `s`. */
  predicate Distinct<T(==)>(s: seq<T>)
  {
    forall i, j :: 0 <= i < j < |s| ==> s[i] != s[j]
  }

  /** `order` is an iteration order of a dict with these keys: each key exactly once. */
  predicate IsOrder(order: seq<string>, keys: set<string>)
  {
    Distinct(order) && (forall i :: 0 <= i < |order| ==> order[i] in keys) && (forall k :: k in keys ==> k in order)
  }
}

=== FILE: names.dfy ===
/** The two families of interface names the script makes up: `temp<i>` and `eth<k>`. */
module Names {
  import opened PyStr

  /** `'temp%d' % idx`: the name phase 1 parks an interface under. */
  function Temp(i: nat): string
  {
    "temp" + NatToString(i)
  }

  /** `'eth%d' % idx`: a fallback name chosen in phase 3. */
  function Eth(k: nat): string
  {
    "eth" + NatToString(k)
  }

  /** Distinct indices give distinct temporary names. */
  lemma TempInjective(i: nat, j: nat)
    ensures Temp(i) == Temp(j) <==> i == j
  {
    if Temp(i) == Temp(j) {
      PrefixCancel("temp", NatToString(i), NatToString(j));
      NatToStringInjective(i, j);
    }
  }

  /** Distinct indices give distinct fallback names. */
  lemma EthInjective(i: nat, j: nat)
    ensures Eth(i) == Eth(j) <==> i == j
  {
    if Eth(i) == Eth(j) {
      PrefixCancel("eth", NatToString(i), NatToString(j));
      NatToStringInjective(i, j);
    }
  }

  /** A fallback name contains `eth`, so the fallback phase never picks it again. */
  lemma EthContainsEth(k: nat)
    ensures Contains(Eth(k), "eth")
  {
    ContainsPrefix(Eth(k), "eth");
  }

  /** A temporary name does not contain `eth`: it has no `h`. */
  lemma TempLacksEth(i: nat)
    ensures !Contains(Temp(i), "eth")
  {
    var t := Temp(i);
    assert forall c :: 0 <= c < |t| ==> t[c] != 'h' by {
      forall c | 0 <= c < |t| ensures t[c] != 'h' {
        if c >= 4 {
          assert t[c] == NatToString(i)[c - 4];
        }
      }
    }
    forall p: nat ensures !OccursAt(t, "eth", p) {
      if p + 3 <= |t| {
        assert t[p..p + 3][2] == t[p + 2];
      }
    }
    ContainsIffOccurs(t, "eth");
  }

  /** No temporary name is a fallback name. */
  lemma TempNotEth(i: nat, k: nat)
    ensures Temp(i) != Eth(k)
  {
    assert Temp(i)[0] == 't' && Eth(k)[0] == 'e';
  }
}

=== FILE: pydict.dfy ===
/**
  Python dictionaries built by a loop of `d[key] = value` statements: the
  model is the sequence of assignments the loop performs, in order.
 */
module PyDict {
  import opened Results

  /** Dictionary assignments applied in order: each present `(key, value)` overwrites the key. */
  function Assign<K, V>(es: seq<Option<(K, V)>>): map<K, V>
    decreases |es|
  {
    if |es| == 0 then map[]
    else
      var m := Assign(es[..|es| - 1]);
      var e := es[|es| - 1];
      if e.Some? then m[e.value.0 := e.value.1] else m
  }

  /** Assignment `i` sets key `k`. */
  predicate Sets<K(==), V>(es: seq<Option<(K, V)>>, i: int, k: K)
  {
    0 <= i < |es| && es[i].Some? && es[i].value.0 == k
  }

  /** Every key holds the value of some assignment that sets it. */
  lemma {:induction false} AssignValueSource<K, V>(es: seq<Option<(K, V)>>, k: K) returns (i: int)
    requires k in Assign(es)
    ensures Sets(es, i, k) && Assign(es)[k] == es[i].value.1
    decreases |es|
  {
    var n := |es| - 1;
    var init := es[..n];
    if Sets(es, n, k) {
      i := n;
    } else {
      i := AssignValueSource(init, k);
      assert init[i] == es[i];
    }
  }

  /** A key is assigned exactly when some assignment sets it. */
  lemma {:induction false} AssignKeys<K, V>(es: seq<Option<(K, V)>>, k: K)
    ensures k in Assign(es) <==> exists i :: Sets(es, i, k)
    decreases |es|
  {
    if |es| > 0 {
      var n := |es| - 1;
      var init := es[..n];
      AssignKeys(init, k);
      assert forall i :: 0 <= i < n ==> init[i] == es[i];
      if !Sets(es, n, k) {
        if k in Assign(init) {
          var i :| Sets(init, i, k);
          assert Sets(es, i, k);
        }
        if exists i :: Sets(es, i, k) {
          var i :| Sets(es, i, k);
          assert Sets(init, i, k);
        }
      }
    }
  }

  /** A key holds the value of the last assignment that sets it. */
  lemma {:induction false} AssignLastWins<K, V>(es: seq<Option<(K, V)>>, i: int, k: K)
    requires Sets(es, i, k)
    requires forall j :: i < j < |es| ==> !Sets(es, j, k)
    ensures k in Assign(es) && Assign(es)[k] == es[i].value.1
    decreases |es|
  {
    var n := |es| - 1;
    if i < n {
      var init := es[..n];
      assert forall j :: 0 <= j < n ==> init[j] == es[j];
      assert forall j :: i < j < n ==> (Sets(init, j, k) <==> Sets(es, j, k));
      assert !Sets(es, n, k);
      AssignLastWins(init, i, k);
    }
  }
}

=== FILE: pystr.dfy ===
/**
  The Python 2 `str` operations the renaming script relies on, over `string`
  (a sequence of characters). Python 2 strings are byte strings, so whitespace
  is the six ASCII separators and case conversion only touches ASCII letters.
 */
module PyStr {

  /** The characters `str.split()` and `str.strip()` treat as whitespace. */
  const Whitespace: set<char> := {' ', '\t', '\n', '\r', '\U{0B}', '\U{0C}'}

  // ---------------------------------------------------------------------------
  // Substring test: `needle in hay`
  // ---------------------------------------------------------------------------

  /** `needle` occurs in `hay` starting at position `i`. */
  predicate OccursAt(hay: string, needle: string, i: nat)
  {
    i + |needle| <= |hay| && hay[i..i + |needle|] == needle
  }

  /** Python's `needle in hay` for two strings. */
  predicate Contains(hay: string, needle: string)
    decreases |hay|
  {
    needle <= hay || (|hay| > 0 && Contains(hay[1..], needle))
  }

  /** An occurrence at any position makes `Contains` hold. */
  lemma {:induction false} OccursImpliesContains(hay: string, needle: string, i: nat)
    requires OccursAt(hay, needle, i)
    ensures Contains(hay, needle)
    decreases i
  {
    if i == 0 {
      assert hay[..|needle|] == needle;
    } else {
      assert hay[1..][i - 1..i - 1 + |needle|] == hay[i..i + |needle|];
      OccursImpliesContains(hay[1..], needle, i - 1);
    }
  }

  /** `Contains` is witnessed by an occurrence at some position. */
  lemma {:induction false} ContainsImpliesOccurs(hay: string, needle: string) returns (i: nat)
    requires Contains(hay, needle)
    ensures OccursAt(hay, needle, i)
    decreases |hay|
  {
    if needle <= hay {
      i := 0;
    } else {
      var j := ContainsImpliesOccurs(hay[1..], needle);
      assert hay[1..][j..j + |needle|] == hay[j + 1..j + 1 + |needle|];
      i := j + 1;
    }
  }

  /** `Contains` holds exactly when the needle occurs at some position. */
  lemma ContainsIffOccurs(hay: string, needle: string)
    ensures Contains(hay, needle) <==> exists i: nat :: OccursAt(hay, needle, i)
  {
    if Contains(hay, needle) {
      var i := ContainsImpliesOccurs(hay, needle);
    }
    forall i: nat | OccursAt(hay, needle, i)
      ensures Contains(hay, needle)
    {
      OccursImpliesContains(hay, needle, i);
    }
  }

  /** A string contains each of its prefixes. */
  lemma ContainsPrefix(hay: string, needle: string)
    requires needle <= hay
    ensures Contains(hay, needle)
  {
  }

  // ---------------------------------------------------------------------------
  // Case conversion: `str.upper()` and `str.lower()`
  // ---------------------------------------------------------------------------

  predicate IsLowerLetter(c: char) { 'a' <= c <= 'z' }

  predicate IsUpperLetter(c: char) { 'A' <= c <= 'Z' }

  function UpperChar(c: char): (u: char)
    ensures !IsLowerLetter(u)
    ensures IsLowerLetter(c) ==> IsUpperLetter(u) && u as int == c as int - 32
    ensures !IsLowerLetter(c) ==> u == c
  {
    if IsLowerLetter(c) then (c as int - 32) as char else c
  }

  function LowerChar(c: char): (l: char)
    ensures !IsUpperLetter(l)
    ensures IsUpperLetter(c) ==> IsLowerLetter(l) && l as int == c as int + 32
    ensures !IsUpperLetter(c) ==> l == c
  {
    if IsUpperLetter(c) then (c as int + 32) as char else c
  }

  /** Python 2 `s.upper()`: every ASCII lower-case letter mapped to upper case. */
  function Upper(s: string): (r: string)
    ensures |r| == |s|
  {
    seq(|s|, i requires 0 <= i < |s| => UpperChar(s[i]))
  }

  /** Python 2 `s.lower()`: every ASCII upper-case letter mapped to lower case. */
  function Lower(s: string): (r: string)
    ensures |r| == |s|
  {
    seq(|s|, i requires 0 <= i < |s| => LowerChar(s[i]))
  }

  /** No character of `s` is an ASCII lower-case letter. */
  predicate NoLowerCase(s: string)
  {
    forall i :: 0 <= i < |s| ==> !IsLowerLetter(s[i])
  }

  /** Upper-casing leaves no lower-case letter and is idempotent. */
  lemma UpperIsUpper(s: string)
    ensures NoLowerCase(Upper(s))
    ensures Upper(Upper(s)) == Upper(s)
  {
  }

  // ---------------------------------------------------------------------------
  // Stripping: `str.lstrip(chars)`, `str.rstrip(chars)`, `str.strip(chars)`
  // ---------------------------------------------------------------------------

  /** Python `s.lstrip(chars)`: drop the longest prefix made of characters in `cs`. */
  function LStrip(s: string, cs: set<char>): (r: string)
    ensures |r| <= |s|
    ensures |r| > 0 ==> r[0] !in cs
    decreases |s|
  {
    if |s| > 0 && s[0] in cs then LStrip(s[1..], cs) else s
  }

  /** Python `s.rstrip(chars)`: drop the longest suffix made of characters in `cs`. */
  function RStrip(s: string, cs: set<char>): (r: string)
    ensures |r| <= |s|
    ensures |r| > 0 ==> r[|r| - 1] !in cs
    decreases |s|
  {
    if |s| > 0 && s[|s| - 1] in cs then RStrip(s[..|s| - 1], cs) else s
  }

  /** Python `s.strip(chars)`: strip both ends. */
  function Strip(s: string, cs: set<char>): (r: string)
    ensures |r| <= |s|
  {
    LStrip(RStrip(s, cs), cs)
  }

  /** `LStrip` removes exactly a leading run of `cs` characters and keeps the rest. */
  lemma {:induction false} LStripSpec(s: string, cs: set<char>)
    ensures var r := LStrip(s, cs);
            && r == s[|s| - |r|..]
            && (forall i :: 0 <= i < |s| - |r| ==> s[i] in cs)
    decreases |s|
  {
    if |s| > 0 && s[0] in cs {
      LStripSpec(s[1..], cs);
    }
  }

  /** `RStrip` removes exactly a trailing run of `cs` characters and keeps the rest. */
  lemma {:induction false} RStripSpec(s: string, cs: set<char>)
    ensures var r := RStrip(s, cs);
            && r == s[..|r|]
            && (forall i :: |r| <= i < |s| ==> s[i] in cs)
    decreases |s|
  {
    if |s| > 0 && s[|s| - 1] in cs {
      RStripSpec(s[..|s| - 1], cs);
    }
  }

  /** Stripping keeps a string free of lower-case letters. */
  lemma StripNoLowerCase(s: string, cs: set<char>)
    requires NoLowerCase(s)
    ensures NoLowerCase(Strip(s, cs))
  {
    var t := RStrip(s, cs);
    RStripSpec(s, cs);
    LStripSpec(t, cs);
    var r := LStrip(t, cs);
    assert forall i :: 0 <= i < |r| ==> r[i] == s[|t| - |r| + i];
  }

  /** Stripping a string that neither starts nor ends with a `cs` character leaves it unchanged. */
  lemma StripKeeps(s: string, cs: set<char>)
    requires |s| > 0 ==> s[0] !in cs && s[|s| - 1] !in cs
    ensures Strip(s, cs) == s
  {
  }

  // ---------------------------------------------------------------------------
  // Splitting: `str.split(sep)` and `str.split()`
  // ---------------------------------------------------------------------------

  /** Position of the first `c` in `s`. */
  function IndexOf(s: string, c: char): (i: nat)
    requires c in s
    ensures i < |s| && s[i] == c
  {
    if s[0] == c then 0 else
      1 + IndexOf(s[1..], c)
  }

  /** No `c` comes before the position `IndexOf` finds. */
  lemma {:induction false} IndexOfFirst(s: string, c: char)
    requires c in s
    ensures forall j :: 0 <= j < IndexOf(s, c) ==> s[j] != c
    decreases |s|
  {
    if s[0] != c {
      assert c in s[1..];
      IndexOfFirst(s[1..], c);
      forall j | 0 < j < IndexOf(s, c) ensures s[j] != c {
        assert s[j] == s[1..][j - 1];
      }
    }
  }

  /** The text of `s` before its first `sep`, or all of `s` when there is none. */
  function FieldBefore(s: string, sep: char): (f: string)
    ensures |f| <= |s|
    ensures sep in s ==> |f| < |s| && s[|f|] == sep
  {
    if sep in s then s[..IndexOf(s, sep)] else s
  }

  /** The pieces `parts` glued back together with `sep` between neighbours. */
  function Join(parts: seq<string>, sep: char): string
    requires |parts| >= 1
  {
    if |parts| == 1 then parts[0] else parts[0] + [sep] + Join(parts[1..], sep)
  }

  /** Python `s.split(sep)` for a one-character separator. */
  function Split(s: string, sep: char): (r: seq<string>)
    ensures |r| >= 1
    ensures |r| == 1 <==> sep !in s
    ensures r[0] == FieldBefore(s, sep)
    decreases |s|
  {
    if sep !in s then [s]
    else
      var i := IndexOf(s, sep);
      [s[..i]] + Split(s[i + 1..], sep)
  }

  /** `FieldBefore` is the longest prefix free of `sep`. */
  lemma FieldBeforeSpec(s: string, sep: char)
    ensures FieldBefore(s, sep) <= s
    ensures sep !in FieldBefore(s, sep)
  {
    if sep in s {
      IndexOfFirst(s, sep);
    }
  }

  /** With a separator present, the first piece is cut off at the first separator. */
  lemma SplitUnfold(s: string, sep: char)
    requires sep in s
    ensures Split(s, sep) == [s[..IndexOf(s, sep)]] + Split(s[IndexOf(s, sep) + 1..], sep)
  {
  }

  /** No piece of `s.split(sep)` contains `sep`. */
  lemma {:induction false} SplitPiecesSepFree(s: string, sep: char)
    ensures forall i :: 0 <= i < |Split(s, sep)| ==> sep !in Split(s, sep)[i]
    decreases |s|
  {
    if sep in s {
      var i := IndexOf(s, sep);
      var rest := Split(s[i + 1..], sep);
      SplitUnfold(s, sep);
      SplitPiecesSepFree(s[i + 1..], sep);
      FieldBeforeSpec(s, sep);
      forall j | 0 <= j < |Split(s, sep)| ensures sep !in Split(s, sep)[j] {
        if j > 0 {
          assert Split(s, sep)[j] == rest[j - 1];
        }
      }
    }
  }

  /** Joining a piece in front of at least one other. */
  lemma JoinCons(a: string, rest: seq<string>, sep: char)
    requires |rest| >= 1
    ensures Join([a] + rest, sep) == a + [sep] + Join(rest, sep)
  {
    assert ([a] + rest)[1..] == rest;
  }

  /** A string is the text before position `i`, the character there, and the text after. */
  lemma SliceAround(s: string, i: nat)
    requires i < |s|
    ensures s == s[..i] + [s[i]] + s[i + 1..]
  {
  }

  /** Joining the pieces of `s.split(sep)` with `sep` gives `s` back. */
  lemma {:induction false} SplitJoin(s: string, sep: char)
    ensures Join(Split(s, sep), sep) == s
    decreases |s|
  {
    if sep in s {
      var i := IndexOf(s, sep);
      var rest := Split(s[i + 1..], sep);
      SplitUnfold(s, sep);
      SplitJoin(s[i + 1..], sep);
      JoinCons(s[..i], rest, sep);
      SliceAround(s, i);
    }
  }

  /** The second piece of `s.split(sep)` is the text between the first and second `sep`. */
  lemma SplitSecond(s: string, sep: char)
    requires sep in s
    ensures Split(s, sep)[1] == FieldBefore(s[IndexOf(s, sep) + 1..], sep)
  {
    SplitUnfold(s, sep);
  }

  /** Length of the leading run of `s` made of characters outside `cs`. */
  function RunLength(s: string, cs: set<char>): (k: nat)
    ensures k <= |s|
    ensures |s| > 0 && s[0] !in cs ==> k > 0
    decreases |s|
  {
    if |s| == 0 || s[0] in cs then 0 else 1 + RunLength(s[1..], cs)
  }

  /** The run is the longest prefix free of `cs`. */
  lemma {:induction false} RunLengthSpec(s: string, cs: set<char>)
    ensures forall i :: 0 <= i < RunLength(s, cs) ==> s[i] !in cs
    ensures RunLength(s, cs) < |s| ==> s[RunLength(s, cs)] in cs
    decreases |s|
  {
    if |s| > 0 && s[0] !in cs {
      RunLengthSpec(s[1..], cs);
    }
  }

  /** The characters of `s` that are not in `cs`, in order. */
  function Remove(s: string, cs: set<char>): string
    decreases |s|
  {
    if |s| == 0 then [] else (if s[0] in cs then [] else [s[0]]) + Remove(s[1..], cs)
  }

  /** All the pieces, concatenated without separators. */
  function Concat(parts: seq<string>): string
    decreases |parts|
  {
    if |parts| == 0 then [] else parts[0] + Concat(parts[1..])
  }

  /** No character of `s` belongs to `cs`. */
  predicate NoneIn(s: string, cs: set<char>)
  {
    forall i :: 0 <= i < |s| ==> s[i] !in cs
  }

  /**
    Python `s.split()` with no argument: the maximal runs of non-whitespace
    characters, leading and trailing whitespace ignored.
   */
  function Tokens(s: string): (r: seq<string>)
    decreases |s|
  {
    var t := LStrip(s, Whitespace);
    if |t| == 0 then []
    else
      var k := RunLength(t, Whitespace);
      [t[..k]] + Tokens(t[k..])
  }

  /** Every token is a non-empty run of non-whitespace characters. */
  lemma {:induction false} TokensWellFormed(s: string)
    ensures forall j :: 0 <= j < |Tokens(s)| ==> |Tokens(s)[j]| > 0 && NoneIn(Tokens(s)[j], Whitespace)
    decreases |s|
  {
    var t := LStrip(s, Whitespace);
    if |t| > 0 {
      var k := RunLength(t, Whitespace);
      RunLengthSpec(t, Whitespace);
      TokensWellFormed(t[k..]);
      var r := [t[..k]] + Tokens(t[k..]);
      assert forall j :: 1 <= j < |r| ==> r[j] == Tokens(t[k..])[j - 1];
    }
  }

  lemma {:induction false} RemoveConcat(a: string, b: string, cs: set<char>)
    ensures Remove(a + b, cs) == Remove(a, cs) + Remove(b, cs)
    decreases |a|
  {
    if |a| > 0 {
      assert (a + b)[1..] == a[1..] + b;
      RemoveConcat(a[1..], b, cs);
    } else {
      assert a + b == b;
    }
  }

  lemma {:induction false} RemoveAllIn(s: string, cs: set<char>)
    requires forall i :: 0 <= i < |s| ==> s[i] in cs
    ensures Remove(s, cs) == []
    decreases |s|
  {
    if |s| > 0 {
      RemoveAllIn(s[1..], cs);
    }
  }

  lemma {:induction false} RemoveNoneIn(s: string, cs: set<char>)
    requires NoneIn(s, cs)
    ensures Remove(s, cs) == s
    decreases |s|
  {
    if |s| > 0 {
      RemoveNoneIn(s[1..], cs);
      assert s == [s[0]] + s[1..];
    }
  }

  /** The tokens of `s`, put back together, are exactly the non-whitespace characters of `s`. */
  lemma {:induction false} TokensConcat(s: string)
    ensures Concat(Tokens(s)) == Remove(s, Whitespace)
    decreases |s|
  {
    var t := LStrip(s, Whitespace);
    LStripSpec(s, Whitespace);
    var lead := s[..|s| - |t|];
    assert s == lead + t;
    RemoveConcat(lead, t, Whitespace);
    RemoveAllIn(lead, Whitespace);
    if |t| > 0 {
      var k := RunLength(t, Whitespace);
      RunLengthSpec(t, Whitespace);
      assert t == t[..k] + t[k..];
      RemoveConcat(t[..k], t[k..], Whitespace);
      RemoveNoneIn(t[..k], Whitespace);
      TokensConcat(t[k..]);
      var r := [t[..k]] + Tokens(t[k..]);
      assert r[1..] == Tokens(t[k..]);
    } else {
      assert Remove(t, Whitespace) == [];
    }
  }

  /** Stripping a leading run from `x + y`: inside `x` when `x` has a non-stripped character, else inside `y`. */
  lemma {:induction false} LStripAppend(x: string, y: string, cs: set<char>)
    ensures LStrip(x + y, cs) == if |LStrip(x, cs)| > 0 then LStrip(x, cs) + y else LStrip(y, cs)
    decreases |x|
  {
    if |x| == 0 {
      assert x + y == y;
    } else if x[0] in cs {
      assert (x + y)[1..] == x[1..] + y;
      LStripAppend(x[1..], y, cs);
    }
  }

  /** A run ends where it ended before when what follows starts with a character of `cs`. */
  lemma {:induction false} RunLengthAppend(x: string, y: string, cs: set<char>)
    requires |y| > 0 && y[0] in cs
    ensures RunLength(x + y, cs) == RunLength(x, cs)
    decreases |x|
  {
    if |x| == 0 {
      assert x + y == y;
    } else if x[0] !in cs {
      assert (x + y)[1..] == x[1..] + y;
      RunLengthAppend(x[1..], y, cs);
    }
  }

  /** A string free of `cs` is one run. */
  lemma {:induction false} RunLengthNoneIn(s: string, cs: set<char>)
    requires NoneIn(s, cs)
    ensures RunLength(s, cs) == |s|
    decreases |s|
  {
    if |s| > 0 {
      RunLengthNoneIn(s[1..], cs);
    }
  }

  /** A non-empty word without whitespace is a single field of `split()`. */
  lemma TokensOfWord(w: string)
    requires |w| > 0 && NoneIn(w, Whitespace)
    ensures Tokens(w) == [w]
  {
    RunLengthNoneIn(w, Whitespace);
    assert w[..|w|] == w && w[|w|..] == [];
  }

  /**
    `split()` cuts at every whitespace character: the fields of `a + [c] + b`
    are those of `a` followed by those of `b`. With `TokensOfWord` this fixes
    the fields of every string.
   */
  lemma {:induction false} TokensSplit(a: string, c: char, b: string)
    requires c in Whitespace
    ensures Tokens(a + [c] + b) == Tokens(a) + Tokens(b)
    decreases |a|
  {
    var s := a + [c] + b;
    var ta := LStrip(a, Whitespace);
    assert s == a + ([c] + b);
    LStripAppend(a, [c] + b, Whitespace);
    if |ta| == 0 {
      assert ([c] + b)[1..] == b;
      assert LStrip(s, Whitespace) == LStrip(b, Whitespace);
      assert Tokens(a) == [];
    } else {
      var k := RunLength(ta, Whitespace);
      RunLengthAppend(ta, [c] + b, Whitespace);
      var u := ta + ([c] + b);
      assert LStrip(s, Whitespace) == u;
      assert u[..k] == ta[..k];
      assert u[k..] == ta[k..] + [c] + b;
      TokensSplit(ta[k..], c, b);
      assert Tokens(s) == [ta[..k]] + Tokens(u[k..]);
    }
  }

  // ---------------------------------------------------------------------------
  // Decimal formatting: `'%d' % n` for a non-negative n
  // ---------------------------------------------------------------------------

  predicate IsDigit(c: char) { '0' <= c <= '9' }

  function DigitChar(d: nat): (c: char)
    requires d < 10
    ensures IsDigit(c) && c as int - '0' as int == d
  {
    ('0' as int + d) as char
  }

  /** Python `'%d' % n`: decimal digits, no leading zero. */
  function NatToString(n: nat): (r: string)
    ensures |r| > 0
    ensures forall i :: 0 <= i < |r| ==> IsDigit(r[i])
    decreases n
  {
    if n < 10 then [DigitChar(n)] else NatToString(n / 10) + [DigitChar(n % 10)]
  }

  /** The decimal text of a positive number does not start with `0`; only `0` itself is `"0"`. */
  lemma {:induction false} NatToStringNoLeadingZero(n: nat)
    ensures n > 0 ==> NatToString(n)[0] != '0'
    ensures |NatToString(n)| > 1 ==> NatToString(n)[0] != '0'
    ensures n == 0 <==> NatToString(n) == "0"
    decreases n
  {
    if n >= 10 {
      NatToStringNoLeadingZero(n / 10);
      assert NatToString(n)[0] == NatToString(n / 10)[0];
      assert NatToString(n) != "0";
    }
  }

  function DigitValue(c: char): (d: nat)
    requires IsDigit(c)
    ensures d < 10
  {
    c as int - '0' as int
  }

  /** The number a string of decimal digits denotes. */
  function DigitsValue(s: string): nat
    requires forall i :: 0 <= i < |s| ==> IsDigit(s[i])
    decreases |s|
  {
    if |s| == 0 then 0 else DigitsValue(s[..|s| - 1]) * 10 + DigitValue(s[|s| - 1])
  }

  /** Reading back the decimal text of `n` gives `n`. */
  lemma {:induction false} NatToStringRoundTrip(n: nat)
    ensures DigitsValue(NatToString(n)) == n
    decreases n
  {
    var s := NatToString(n);
    if n < 10 {
      assert s[..0] == [];
    } else {
      NatToStringRoundTrip(n / 10);
      assert s[..|s| - 1] == NatToString(n / 10);
    }
  }

  /** Distinct numbers print as distinct decimal strings. */
  lemma NatToStringInjective(m: nat, n: nat)
    requires NatToString(m) == NatToString(n)
    ensures m == n
  {
    NatToStringRoundTrip(m);
    NatToStringRoundTrip(n);
  }

  /** Two equal strings with a common prefix have equal suffixes. */
  lemma PrefixCancel(p: string, a: string, b: string)
    requires p + a == p + b
    ensures a == b
  {
    assert a == (p + a)[|p|..];
    assert b == (p + b)[|p|..];
  }
}

=== FILE: renamer.dfy ===
/**
  The renaming steps of the script: `link_name_change` as a list of link
  commands, the HWADDR matching of `assign_interface`, and the command plans
  of phase 1 (park every interface under `temp<i>`) and phase 2 (rename by
  configuration).
 */
module Renamer {
  import opened Results
  import opened PyStr
  import opened Names
  import opened LinkTable
  import opened IpLink
  import opened Ifcfg

  // ---------------------------------------------------------------------------
  // link_name_change
  // ---------------------------------------------------------------------------

  /** The new name `link_name_change` asks for: `dest`, or `temp<idx>` when `dest` is `None` or empty. */
  function RenameTarget(idx: nat, dest: Option<string>): string
  {
    if dest.None? || dest.value == "" then Temp(idx) else dest.value
  }

  /**
    `link_name_change(idx, entry, dest)`: take `entry` down, rename it, then
    bring up `temp<idx>` -- whatever `dest` was.
   */
  function LinkNameChange(idx: nat, entry: string, dest: Option<string>): (cmds: seq<Cmd>)
  {
    [Down(entry), SetName(entry, RenameTarget(idx, dest)), Up(Temp(idx))]
  }

  /**
    What the three commands do to a link table. When `entry` exists and the
    new name is free, the link moves to the new name and stays down unless
    the new name is `temp<idx>`; otherwise no name changes, and `entry`, if
    present, is left down unless it is `temp<idx>`. Any other link keeps its
    state -- including a link already holding the new name when the rename
    fails -- except that a link named `temp<idx>` is brought up.
   */
  lemma LinkNameChangeEffect(m: Links, idx: nat, entry: string, dest: Option<string>)
    ensures var t := RenameTarget(idx, dest);
            var m' := Apply(m, LinkNameChange(idx, entry, dest));
            && (entry in m && t !in m ==> m'.Keys == m.Keys - {entry} + {t} && m'[t] == Link(m[entry].mac, t == Temp(idx)))
            && (!(entry in m && t !in m) ==> m'.Keys == m.Keys && (entry in m ==> m'[entry] == Link(m[entry].mac, entry == Temp(idx))))
            && (forall n :: n in m' && n != entry && (n != t || !(entry in m && t !in m)) ==>
                  n in m && m'[n] == m[n].(up := m[n].up || n == Temp(idx)))
  {
    var t := RenameTarget(idx, dest);
    if entry in m && t !in m {
      DownRenameUpMoves(m, entry, t, Temp(idx));
    } else {
      DownRenameUpBlocked(m, entry, t, Temp(idx));
    }
    DownRenameUpOthers(m, entry, t, Temp(idx));
  }

  /** The up command does not depend on the requested name. */
  lemma LinkNameChangeUpIgnoresDest(idx: nat, entry: string, dest: Option<string>)
    ensures LinkNameChange(idx, entry, dest)[2] == LinkNameChange(idx, entry, None)[2] == Up(Temp(idx))
    ensures LinkNameChange(idx, entry, dest)[1] == SetName(entry, RenameTarget(idx, dest))
  {
  }

  // ---------------------------------------------------------------------------
  // assign_interface
  // ---------------------------------------------------------------------------

  /** The configuration records the loop visits, in `order`, all present and all with a `HWADDR` key. */
  predicate Readable(configs: map<string, ConfigMap>, order: seq<string>)
  {
    forall i :: 0 <= i < |order| ==> order[i] in configs && "HWADDR" in configs[order[i]]
  }

  /** A record matches when its `HWADDR`, double quotes stripped, occurs in the interface's address. */
  predicate Matches(iface: Iface, cfg: ConfigMap)
    requires "HWADDR" in cfg
  {
    Contains(iface.hwaddr, Strip(cfg["HWADDR"], {'"'}))
  }

  /** A configured name, lower-cased with double quotes stripped. */
  function CleanName(v: string): string
  {
    Strip(Lower(v), {'"'})
  }

  /** The name a matching record asks for: `DEVICE` if present, else `NAME`, else none. */
  function RecordTarget(iface: Iface, cfg: ConfigMap): (t: Option<string>)
    requires "HWADDR" in cfg
    ensures t.Some? <==> Matches(iface, cfg) && ("DEVICE" in cfg || "NAME" in cfg)
    ensures t.Some? && "DEVICE" in cfg ==> t.value == CleanName(cfg["DEVICE"])
    ensures t.Some? && "DEVICE" !in cfg ==> t.value == CleanName(cfg["NAME"])
  {
    if !Matches(iface, cfg) then None
    else if "DEVICE" in cfg then Some(CleanName(cfg["DEVICE"]))
    else if "NAME" in cfg then Some(CleanName(cfg["NAME"]))
    else None
  }

  /** The positions (in visiting order) of the records that lead to a rename. */
  function Actionable(iface: Iface, configs: map<string, ConfigMap>, order: seq<string>): set<int>
    requires Readable(configs, order)
  {
    Present(RecordTargets(iface, configs, order))
  }

  /** What each visited record asks for, in visiting order. */
  function RecordTargets(iface: Iface, configs: map<string, ConfigMap>, order: seq<string>): (ts: seq<Option<string>>)
    requires Readable(configs, order)
    ensures |ts| == |order|
    ensures forall i :: 0 <= i < |order| ==> ts[i] == RecordTarget(iface, configs[order[i]])
  {
    seq(|order|, i requires 0 <= i < |order| => RecordTarget(iface, configs[order[i]]))
  }

  /** The positions of the present targets. */
  function Present(ts: seq<Option<string>>): set<int>
  {
    set i | 0 <= i < |ts| && ts[i].Some?
  }

  /** The commands and count `assign_interface` produces. */
  datatype Assignment = Assignment(cmds: seq<Cmd>, named: nat)

  /** A command the loop of `assign_interface` can issue for interface `entry`. */
  predicate IssuedFor(c: Cmd, entry: string, ts: seq<Option<string>>)
  {
    || c == Down(entry)
    || c == Up(Temp(0))
    || exists i :: 0 <= i < |ts| && ts[i].Some? && c == SetName(entry, RenameTarget(0, ts[i]))
  }

  /**
    The loop of `assign_interface` over what the records ask for: each present
    target issues `link_name_change(0, entry, target)` and counts once. The
    count is the number of present targets; every rename starts from `entry`,
    the name read before the loop, and every up command is for `temp0`.
   */
  function Renames(entry: string, ts: seq<Option<string>>): (a: Assignment)
    ensures a.named == |Present(ts)|
    ensures |a.cmds| == 3 * a.named
    ensures forall j :: 0 <= j < |a.cmds| ==> IssuedFor(a.cmds[j], entry, ts)
    decreases |ts|
  {
    if |ts| == 0 then Assignment([], 0)
    else
      var n := |ts| - 1;
      var a := Renames(entry, ts[..n]);
      PresentStep(ts);
      assert forall j :: 0 <= j < |a.cmds| ==> IssuedFor(a.cmds[j], entry, ts) by {
        forall j | 0 <= j < |a.cmds| ensures IssuedFor(a.cmds[j], entry, ts) {
          assert IssuedFor(a.cmds[j], entry, ts[..n]);
          assert forall i :: 0 <= i < n ==> ts[..n][i] == ts[i];
        }
      }
      if ts[n].None? then a
      else
        var cmds := a.cmds + LinkNameChange(0, entry, ts[n]);
        assert forall j :: |a.cmds| <= j < |cmds| ==> IssuedFor(cmds[j], entry, ts);
        Assignment(cmds, a.named + 1)
  }

  /** One more target adds its position exactly when it is present. */
  lemma PresentStep(ts: seq<Option<string>>)
    requires |ts| > 0
    ensures var n := |ts| - 1;
            Present(ts) == if ts[n].Some? then Present(ts[..n]) + {n} else Present(ts[..n])
    ensures |ts| - 1 !in Present(ts[..|ts| - 1])
  {
  }

  /** The targets present in `ts`, in order, filtered from the front. */
  function PresentTargets(ts: seq<Option<string>>): seq<string>
    decreases |ts|
  {
    if |ts| == 0 then []
    else (if ts[0].Some? then [ts[0].value] else []) + PresentTargets(ts[1..])
  }

  /** Filtering one more target at the back appends it when it is present. */
  lemma {:induction false} PresentTargetsSnoc(ts: seq<Option<string>>)
    requires |ts| > 0
    ensures var n := |ts| - 1;
            PresentTargets(ts) == PresentTargets(ts[..n]) + (if ts[n].Some? then [ts[n].value] else [])
    decreases |ts|
  {
    var n := |ts| - 1;
    if n > 0 {
      PresentTargetsSnoc(ts[1..]);
      assert ts[1..][..n - 1] == ts[..n][1..];
      assert ts[1..][n - 1] == ts[n];
      assert ts[..n][0] == ts[0];
    } else {
      assert ts[1..] == [];
    }
  }

  /** `pos` lists, for each value of `vs`, a position of `ts` holding it. */
  predicate PositionsOf(ts: seq<Option<string>>, vs: seq<string>, pos: seq<nat>)
  {
    |pos| == |vs| && forall r :: 0 <= r < |pos| ==> pos[r] < |ts| && ts[pos[r]] == Some(vs[r])
  }

  /** The positions strictly increase. */
  predicate StrictlyIncreasing(pos: seq<nat>)
  {
    forall r, r' :: 0 <= r < r' < |pos| ==> pos[r] < pos[r']
  }

  /** Every position of `ts` holding a target is listed. */
  predicate CoversPresent(ts: seq<Option<string>>, pos: seq<nat>)
  {
    forall i :: 0 <= i < |ts| && ts[i].Some? ==> i in pos
  }

  /** The positions of the tail, moved one up, with position 0 in front when the head is present. */
  function ConsPositions(present: bool, rest: seq<nat>): (pos: seq<nat>)
    ensures |pos| == |rest| + (if present then 1 else 0)
  {
    (if present then [0] else []) + seq(|rest|, r requires 0 <= r < |rest| => rest[r] + 1)
  }

  /** Positions of the tail's targets give positions of the whole sequence's targets. */
  lemma PositionsOfCons(ts: seq<Option<string>>, vs: seq<string>, rest: seq<nat>)
    requires |ts| > 0 && PositionsOf(ts[1..], vs, rest)
    ensures PositionsOf(ts, (if ts[0].Some? then [ts[0].value] else []) + vs, ConsPositions(ts[0].Some?, rest))
  {
    var h := if ts[0].Some? then 1 else 0;
    var pos := ConsPositions(ts[0].Some?, rest);
    var ws := (if ts[0].Some? then [ts[0].value] else []) + vs;
    forall r | 0 <= r < |pos| ensures pos[r] < |ts| && ts[pos[r]] == Some(ws[r]) {
      if r >= h {
        assert pos[r] == rest[r - h] + 1 && ws[r] == vs[r - h];
        assert ts[rest[r - h] + 1] == ts[1..][rest[r - h]];
      }
    }
  }

  /** Moving increasing positions up and putting 0 in front keeps them increasing. */
  lemma StrictlyIncreasingCons(present: bool, rest: seq<nat>)
    requires StrictlyIncreasing(rest)
    ensures StrictlyIncreasing(ConsPositions(present, rest))
  {
    var h := if present then 1 else 0;
    var pos := ConsPositions(present, rest);
    forall r, r' | 0 <= r < r' < |pos| ensures pos[r] < pos[r'] {
      assert pos[r'] == rest[r' - h] + 1;
      if r >= h {
        assert pos[r] == rest[r - h] + 1;
      }
    }
  }

  /** Covering the tail's present positions covers the whole sequence's. */
  lemma CoversPresentCons(ts: seq<Option<string>>, rest: seq<nat>)
    requires |ts| > 0 && CoversPresent(ts[1..], rest)
    ensures CoversPresent(ts, ConsPositions(ts[0].Some?, rest))
  {
    var h := if ts[0].Some? then 1 else 0;
    var pos := ConsPositions(ts[0].Some?, rest);
    forall i | 0 <= i < |ts| && ts[i].Some? ensures i in pos {
      if i > 0 {
        assert ts[1..][i - 1] == ts[i];
        var q :| 0 <= q < |rest| && rest[q] == i - 1;
        assert pos[h + q] == i;
      } else {
        assert pos[0] == 0;
      }
    }
  }

  /**
    Where the present targets come from: strictly increasing positions of
    `ts`, one per present target, covering every present position.
   */
  lemma {:induction false} PresentTargetsPositions(ts: seq<Option<string>>) returns (pos: seq<nat>)
    ensures PositionsOf(ts, PresentTargets(ts), pos)
    ensures StrictlyIncreasing(pos)
    ensures CoversPresent(ts, pos)
    decreases |ts|
  {
    if |ts| == 0 {
      pos := [];
    } else {
      var rest := PresentTargetsPositions(ts[1..]);
      PositionsOfCons(ts, PresentTargets(ts[1..]), rest);
      StrictlyIncreasingCons(ts[0].Some?, rest);
      CoversPresentCons(ts, rest);
      pos := ConsPositions(ts[0].Some?, rest);
    }
  }

  /**
    `assign_interface` issues, for the r-th present target in order, exactly
    `link_name_change(0, entry, target)`.
   */
  lemma {:induction false} RenamesTriples(entry: string, ts: seq<Option<string>>)
    ensures |PresentTargets(ts)| == Renames(entry, ts).named
    ensures forall r :: 0 <= r < Renames(entry, ts).named ==>
              Renames(entry, ts).cmds[3 * r..3 * r + 3] == LinkNameChange(0, entry, Some(PresentTargets(ts)[r]))
    decreases |ts|
  {
    if |ts| > 0 {
      var n := |ts| - 1;
      RenamesTriples(entry, ts[..n]);
      PresentTargetsSnoc(ts);
      var a := Renames(entry, ts[..n]);
      var b := Renames(entry, ts);
      var pt := PresentTargets(ts[..n]);
      if ts[n].Some? {
        assert b.cmds == a.cmds + LinkNameChange(0, entry, ts[n]) && b.named == a.named + 1;
        forall r | 0 <= r < b.named ensures b.cmds[3 * r..3 * r + 3] == LinkNameChange(0, entry, Some(PresentTargets(ts)[r])) {
          if r < a.named {
            assert b.cmds[3 * r..3 * r + 3] == a.cmds[3 * r..3 * r + 3];
            assert PresentTargets(ts)[r] == pt[r];
          } else {
            assert b.cmds[3 * r..3 * r + 3] == LinkNameChange(0, entry, ts[n]);
          }
        }
      } else {
        assert b == a;
      }
    }
  }

  /** The names the records visited in `order` ask for, in visiting order. */
  function AskedNames(iface: Iface, configs: map<string, ConfigMap>, order: seq<string>): seq<string>
    requires Readable(configs, order)
  {
    PresentTargets(RecordTargets(iface, configs, order))
  }

  /**
    `assign_interface(interface, configs)`, the records visited in `order`.
    The count is the number of records that match and carry `DEVICE` or
    `NAME`; the commands are, in visiting order, one `link_name_change(0,
    interface[2], target)` per such record, so every rename is of the name
    the interface had when the dict was read, to the record's target, or
    to `temp0` when that target is empty; every up command is for `temp0`.
   */
  function AssignInterface(iface: Iface, configs: map<string, ConfigMap>, order: seq<string>): (a: Assignment)
    requires Readable(configs, order)
    ensures a.named == |Actionable(iface, configs, order)|
    ensures |a.cmds| == 3 * a.named
    ensures forall j :: 0 <= j < |a.cmds| ==>
              || a.cmds[j] == Down(iface.name)
              || a.cmds[j] == Up(Temp(0))
              || exists i :: 0 <= i < |order| && RecordTarget(iface, configs[order[i]]).Some?
                             && a.cmds[j] == SetName(iface.name, RenameTarget(0, RecordTarget(iface, configs[order[i]])))
    ensures |AskedNames(iface, configs, order)| == a.named
    ensures forall r :: 0 <= r < a.named ==>
              a.cmds[3 * r..3 * r + 3] == LinkNameChange(0, iface.name, Some(AskedNames(iface, configs, order)[r]))
  {
    var ts := RecordTargets(iface, configs, order);
    var a := Renames(iface.name, ts);
    RenamesTriples(iface.name, ts);
    forall j | 0 <= j < |a.cmds| && a.cmds[j] != Down(iface.name) && a.cmds[j] != Up(Temp(0))
      ensures exists i :: 0 <= i < |order| && RecordTarget(iface, configs[order[i]]).Some?
                          && a.cmds[j] == SetName(iface.name, RenameTarget(0, RecordTarget(iface, configs[order[i]])))
    {
      assert IssuedFor(a.cmds[j], iface.name, ts);
      var i :| 0 <= i < |ts| && ts[i].Some? && a.cmds[j] == SetName(iface.name, RenameTarget(0, ts[i]));
    }
    a
  }

  /**
    Every record that matches and carries `DEVICE` or `NAME` gets its own
    `link_name_change(0, interface[2], target)`: the r-th triple, where r
    counts such records before it in visiting order.
   */
  lemma ActionableRecordRenamed(iface: Iface, configs: map<string, ConfigMap>, order: seq<string>, i: nat)
    requires Readable(configs, order)
    requires i < |order| && RecordTarget(iface, configs[order[i]]).Some?
    ensures exists r :: 0 <= r < AssignInterface(iface, configs, order).named
                        && AssignInterface(iface, configs, order).cmds[3 * r..3 * r + 3]
                           == LinkNameChange(0, iface.name, RecordTarget(iface, configs[order[i]]))
  {
    var ts := RecordTargets(iface, configs, order);
    var pos := PresentTargetsPositions(ts);
    assert ts[i].Some?;
    var r :| 0 <= r < |pos| && pos[r] == i;
    var a := AssignInterface(iface, configs, order);
    var names := AskedNames(iface, configs, order);
    assert |pos| == |names| == a.named;
    assert ts[i] == Some(names[r]) == RecordTarget(iface, configs[order[i]]);
    assert a.cmds[3 * r..3 * r + 3] == LinkNameChange(0, iface.name, Some(names[r]));
  }

  /**
    When exactly one record asks for a name, `dest`, and the interface is
    present under its dict name while that target is free, `assign_interface` moves
    the link to the target and keeps its hardware address.
   */
  lemma AssignOneEffect(m: Links, iface: Iface, configs: map<string, ConfigMap>, order: seq<string>, dest: string)
    requires Readable(configs, order)
    requires AskedNames(iface, configs, order) == [dest]
    requires iface.name in m && RenameTarget(0, Some(dest)) !in m
    ensures var t := RenameTarget(0, Some(dest));
            var m' := Apply(m, AssignInterface(iface, configs, order).cmds);
            m'.Keys == m.Keys - {iface.name} + {t} && m'[t].mac == m[iface.name].mac
  {
    var a := AssignInterface(iface, configs, order);
    var names := AskedNames(iface, configs, order);
    assert |names| == a.named == 1 && names[0] == dest;
    assert a.cmds == a.cmds[0..3] == LinkNameChange(0, iface.name, Some(names[0]));
    LinkNameChangeEffect(m, 0, iface.name, Some(dest));
  }

  /** Matching is substring search: the stripped `HWADDR` occurs at some position of the address. */
  lemma MatchesIffOccurs(iface: Iface, cfg: ConfigMap)
    requires "HWADDR" in cfg
    ensures Matches(iface, cfg) <==> exists i: nat :: OccursAt(iface.hwaddr, Strip(cfg["HWADDR"], {'"'}), i)
  {
    ContainsIffOccurs(iface.hwaddr, Strip(cfg["HWADDR"], {'"'}));
  }

  /** A record whose `HWADDR` is empty once double quotes are stripped matches every interface. */
  lemma EmptyHwaddrMatchesAll(iface: Iface, cfg: ConfigMap)
    requires "HWADDR" in cfg && Strip(cfg["HWADDR"], {'"'}) == ""
    ensures Matches(iface, cfg)
  {
    ContainsPrefix(iface.hwaddr, "");
  }

  /**
    Single quotes are not stripped: a `HWADDR` written between single quotes
    never matches an address without a single quote, which every address
    read from `ip link show` is.
   */
  lemma SingleQuotedHwaddrNeverMatches(iface: Iface, cfg: ConfigMap, v: string)
    requires "HWADDR" in cfg && cfg["HWADDR"] == "'" + v + "'"
    requires forall i :: 0 <= i < |iface.hwaddr| ==> iface.hwaddr[i] != '\''
    ensures !Matches(iface, cfg)
  {
    var w := cfg["HWADDR"];
    StripKeeps(w, {'"'});
    var h := iface.hwaddr;
    forall p: nat ensures !OccursAt(h, w, p) {
      if p + |w| <= |h| {
        assert h[p..p + |w|][0] == h[p];
      }
    }
    ContainsIffOccurs(h, w);
  }

  // ---------------------------------------------------------------------------
  // Phase 1: every interface parked under temp<i>
  // ---------------------------------------------------------------------------

  /** `for idx, entry in enumerate(interfaces.keys()): link_name_change(idx, entry)`. */
  function QuarantinePlan(order: seq<string>): (cmds: seq<Cmd>)
    ensures |cmds| == 3 * |order|
    decreases |order|
  {
    if |order| == 0 then []
    else
      var n := |order| - 1;
      QuarantinePlan(order[..n]) + LinkNameChange(n, order[n], None)
  }

  /** The i-th interface of the order is taken down, renamed to `temp<i>` and brought up as `temp<i>`. */
  lemma {:induction false} QuarantinePlanCommands(order: seq<string>, i: nat)
    requires i < |order|
    ensures var cmds := QuarantinePlan(order);
            cmds[3 * i] == Down(order[i]) && cmds[3 * i + 1] == SetName(order[i], Temp(i)) && cmds[3 * i + 2] == Up(Temp(i))
    decreases |order|
  {
    var n := |order| - 1;
    if i < n {
      QuarantinePlanCommands(order[..n], i);
      var init := QuarantinePlan(order[..n]);
      assert QuarantinePlan(order)[3 * i..3 * i + 3] == init[3 * i..3 * i + 3];
    }
  }

  /** Phase 1 asks for pairwise distinct names: interface `i` of the order goes to `temp<i>`. */
  lemma QuarantineTargetsDistinct(order: seq<string>, i: nat, j: nat)
    requires i < j < |order|
    ensures QuarantinePlan(order)[3 * i + 1] == SetName(order[i], Temp(i))
    ensures QuarantinePlan(order)[3 * j + 1] == SetName(order[j], Temp(j))
    ensures Temp(i) != Temp(j)
  {
    QuarantinePlanCommands(order, i);
    QuarantinePlanCommands(order, j);
    TempInjective(i, j);
  }

  /**
    The table after the first `n` interfaces of `order` are parked: those
    sit under `temp<0>` .. `temp<n-1>`, up, with their addresses; the rest
    are untouched.
   */
  predicate Parked(m: Links, order: seq<string>, n: nat, s: Links)
    requires n <= |order|
    requires forall i :: 0 <= i < |order| ==> order[i] in m
  {
    && s.Keys == TempNames(n) + LaterNames(order, n)
    && (forall i :: 0 <= i < n ==> Temp(i) in s && s[Temp(i)] == Link(m[order[i]].mac, true))
    && (forall i :: n <= i < |order| ==> order[i] in s && s[order[i]] == m[order[i]])
  }

  /** The requirements of one parking step: the first `k` parked, the temporary names free in the start table. */
  predicate ParkReady(m: Links, order: seq<string>, k: nat, s: Links)
  {
    && IsOrder(order, m.Keys)
    && (forall i :: 0 <= i < |order| ==> Temp(i) !in m)
    && k < |order|
    && Parked(m, order, k, s)
  }

  /** In a parking step the interface is present and its temporary name is free. */
  lemma ParkMoves(m: Links, order: seq<string>, k: nat, s: Links)
    requires ParkReady(m, order, k, s)
    ensures order[k] in s && Temp(k) !in s
  {
    forall i | 0 <= i < k ensures Temp(i) != Temp(k) { TempInjective(i, k); }
  }

  /** The names `temp<0>` .. `temp<n-1>`. */
  function TempNames(n: nat): set<string>
  {
    set i | 0 <= i < n :: Temp(i)
  }

  /** The names of the interfaces from position `n` of `order` on. */
  function LaterNames(order: seq<string>, n: nat): set<string>
  {
    set i | n <= i < |order| :: order[i]
  }

  /** One more temporary name. */
  lemma TempNamesStep(k: nat)
    ensures TempNames(k + 1) == TempNames(k) + {Temp(k)}
  {
    assert Temp(k) in TempNames(k + 1);
  }

  /** In an order without repeats, position `k` leaves the later names and no other. */
  lemma LaterNamesStep(order: seq<string>, k: nat)
    requires Distinct(order) && k < |order|
    ensures LaterNames(order, k) == LaterNames(order, k + 1) + {order[k]}
    ensures order[k] !in LaterNames(order, k + 1)
  {
    assert order[k] in LaterNames(order, k);
    forall i | k + 1 <= i < |order| ensures order[i] != order[k] {
    }
  }

  /** A name of the start table is no temporary name. */
  lemma TempNamesFree(m: Links, order: seq<string>, k: nat, x: string)
    requires k <= |order|
    requires forall i :: 0 <= i < |order| ==> Temp(i) !in m
    requires x in m
    ensures x !in TempNames(k)
  {
    forall i | 0 <= i < k ensures Temp(i) != x {
    }
  }

  /** The names after a parking step. */
  lemma ParkStepKeys(m: Links, order: seq<string>, k: nat, s: Links)
    requires ParkReady(m, order, k, s)
    ensures Apply(s, LinkNameChange(k, order[k], None)).Keys == TempNames(k + 1) + LaterNames(order, k + 1)
  {
    var e := order[k];
    ParkMoves(m, order, k, s);
    LinkNameChangeEffect(s, k, e, None);
    TempNamesStep(k);
    LaterNamesStep(order, k);
    TempNamesFree(m, order, k, e);
    var s' := Apply(s, LinkNameChange(k, e, None));
    assert s'.Keys == s.Keys - {e} + {Temp(k)};
  }

  /** After a parking step the parked links, now including interface `k`, sit under their temporary names. */
  lemma ParkStepTemps(m: Links, order: seq<string>, k: nat, s: Links)
    requires ParkReady(m, order, k, s)
    ensures var s' := Apply(s, LinkNameChange(k, order[k], None));
            forall i :: 0 <= i < k + 1 ==> Temp(i) in s' && s'[Temp(i)] == Link(m[order[i]].mac, true)
  {
    var e := order[k];
    ParkMoves(m, order, k, s);
    LinkNameChangeEffect(s, k, e, None);
    var s' := Apply(s, LinkNameChange(k, e, None));
    assert s'[Temp(k)] == Link(m[e].mac, true);
    forall i | 0 <= i < k ensures Temp(i) in s' && s'[Temp(i)] == Link(m[order[i]].mac, true) {
      TempInjective(i, k);
      assert Temp(i) in s && Temp(i) != e;
    }
  }

  /** After a parking step the interfaces not yet visited are untouched. */
  lemma ParkStepRest(m: Links, order: seq<string>, k: nat, s: Links)
    requires ParkReady(m, order, k, s)
    ensures var s' := Apply(s, LinkNameChange(k, order[k], None));
            forall i :: k + 1 <= i < |order| ==> order[i] in s' && s'[order[i]] == m[order[i]]
  {
    var e := order[k];
    ParkMoves(m, order, k, s);
    LinkNameChangeEffect(s, k, e, None);
    var s' := Apply(s, LinkNameChange(k, e, None));
    forall i | k + 1 <= i < |order| ensures order[i] in s' && s'[order[i]] == m[order[i]] {
      assert order[i] in m && order[i] != e;
      assert order[i] != Temp(k);
      assert order[i] in s;
    }
  }

  /** Parking interface `k` extends a table where the first `k` are parked. */
  lemma ParkStep(m: Links, order: seq<string>, k: nat, s: Links)
    requires ParkReady(m, order, k, s)
    ensures Parked(m, order, k + 1, Apply(s, LinkNameChange(k, order[k], None)))
  {
    ParkStepKeys(m, order, k, s);
    ParkStepTemps(m, order, k, s);
    ParkStepRest(m, order, k, s);
  }

  /** Parking proceeds one interface at a time. */
  lemma {:induction false} QuarantinePrefix(m: Links, order: seq<string>, n: nat)
    requires IsOrder(order, m.Keys)
    requires forall i :: 0 <= i < |order| ==> Temp(i) !in m
    requires n <= |order|
    ensures Parked(m, order, n, Apply(m, QuarantinePlan(order[..n])))
    decreases n
  {
    if n == 0 {
      assert m.Keys == LaterNames(order, 0);
    } else {
      var k := n - 1;
      QuarantinePrefix(m, order, k);
      assert order[..n][..k] == order[..k];
      ApplyConcat(m, QuarantinePlan(order[..k]), LinkNameChange(k, order[k], None));
      ParkStep(m, order, k, Apply(m, QuarantinePlan(order[..k])));
    }
  }

  /**
    Phase 1 starting from a table where `temp<0>` .. `temp<N-1>` are free
    (N links): afterwards the links are named exactly `temp<0>` ..
    `temp<N-1>`, the i-th enumerated link under `temp<i>`, up, with its own
    hardware address.
   */
  lemma QuarantineEffect(m: Links, order: seq<string>)
    requires IsOrder(order, m.Keys)
    requires forall i :: 0 <= i < |order| ==> Temp(i) !in m
    ensures var m' := Apply(m, QuarantinePlan(order));
            && m'.Keys == (set i | 0 <= i < |order| :: Temp(i))
            && forall i :: 0 <= i < |order| ==> m'[Temp(i)] == Link(m[order[i]].mac, true)
  {
    QuarantinePrefix(m, order, |order|);
    assert order[..|order|] == order;
    ParkedAll(m, order, Apply(m, QuarantinePlan(order)));
  }

  /** With every interface parked, only the temporary names are left. */
  lemma ParkedAll(m: Links, order: seq<string>, s: Links)
    requires forall i :: 0 <= i < |order| ==> order[i] in m
    requires Parked(m, order, |order|, s)
    ensures s.Keys == (set i | 0 <= i < |order| :: Temp(i))
    ensures forall i :: 0 <= i < |order| ==> s[Temp(i)] == Link(m[order[i]].mac, true)
  {
    assert LaterNames(order, |order|) == {};
  }

  // ---------------------------------------------------------------------------
  // Phase 2: rename by configuration
  // ---------------------------------------------------------------------------

  /** The commands of phase 2 and the final value of `success` (unbound when no interface was visited). */
  datatype MatchOutcome = MatchOutcome(cmds: seq<Cmd>, success: Option<nat>)

  /**
    `for interface_entry in interfaces.keys(): success = assign_interface(...)`:
    the commands of every interface in turn; `success` holds only the count
    of the interface visited last.
   */
  function MatchPlan(ifaces: map<string, Iface>, order: seq<string>, configs: map<string, ConfigMap>, corder: seq<string>): (r: MatchOutcome)
    requires forall i :: 0 <= i < |order| ==> order[i] in ifaces
    requires Readable(configs, corder)
    ensures r.success.None? <==> |order| == 0
    ensures |order| > 0 ==> r.success.value == |Actionable(ifaces[order[|order| - 1]], configs, corder)|
    decreases |order|
  {
    if |order| == 0 then MatchOutcome([], None)
    else
      var n := |order| - 1;
      var r := MatchPlan(ifaces, order[..n], configs, corder);
      var a := AssignInterface(ifaces[order[n]], configs, corder);
      MatchOutcome(r.cmds + a.cmds, Some(a.named))
  }

  /** The interfaces visited in `order`. */
  function Visited(ifaces: map<string, Iface>, order: seq<string>): (vs: seq<Iface>)
    requires forall i :: 0 <= i < |order| ==> order[i] in ifaces
    ensures |vs| == |order| && forall i :: 0 <= i < |order| ==> vs[i] == ifaces[order[i]]
  {
    seq(|order|, i requires 0 <= i < |order| => ifaces[order[i]])
  }

  /** The command lists `f` gives for each element of `vs`, concatenated from the front. */
  function FlatMap<A>(f: A --> seq<Cmd>, vs: seq<A>): seq<Cmd>
    requires forall i :: 0 <= i < |vs| ==> f.requires(vs[i])
    decreases |vs|
  {
    if |vs| == 0 then [] else f(vs[0]) + FlatMap(f, vs[1..])
  }

  /** One more element at the back adds its commands at the back. */
  lemma {:induction false} FlatMapSnoc<A>(f: A --> seq<Cmd>, vs: seq<A>, v: A)
    requires forall i :: 0 <= i < |vs| ==> f.requires(vs[i])
    requires f.requires(v)
    ensures var ws := vs + [v];
            (forall i :: 0 <= i < |ws| ==> f.requires(ws[i])) && FlatMap(f, ws) == FlatMap(f, vs) + f(v)
    decreases |vs|
  {
    var ws := vs + [v];
    assert forall i :: 0 <= i < |ws| ==> f.requires(ws[i]) by {
      forall i | 0 <= i < |ws| ensures f.requires(ws[i]) {
        if i < |vs| { assert ws[i] == vs[i]; }
      }
    }
    if |vs| == 0 {
      assert ws == [v];
      assert ws[1..] == [];
    } else {
      assert ws[0] == vs[0];
      assert ws[1..] == vs[1..] + [v];
      FlatMapSnoc(f, vs[1..], v);
    }
  }

  /** The commands of `assign_interface` on each interface of `vs`, concatenated from the front. */
  function AllAssignCmds(vs: seq<Iface>, configs: map<string, ConfigMap>, corder: seq<string>): seq<Cmd>
    requires Readable(configs, corder)
  {
    FlatMap(v requires Readable(configs, corder) => AssignInterface(v, configs, corder).cmds, vs)
  }

  /** One more interface at the back adds its commands at the back. */
  lemma AllAssignCmdsSnoc(vs: seq<Iface>, v: Iface, configs: map<string, ConfigMap>, corder: seq<string>)
    requires Readable(configs, corder)
    ensures AllAssignCmds(vs + [v], configs, corder) == AllAssignCmds(vs, configs, corder) + AssignInterface(v, configs, corder).cmds
  {
    FlatMapSnoc(v requires Readable(configs, corder) => AssignInterface(v, configs, corder).cmds, vs, v);
  }

  /** One more visited interface adds its `assign_interface` commands at the back. */
  lemma MatchPlanSnoc(ifaces: map<string, Iface>, order: seq<string>, configs: map<string, ConfigMap>, corder: seq<string>)
    requires forall i :: 0 <= i < |order| ==> order[i] in ifaces
    requires Readable(configs, corder)
    requires |order| > 0
    ensures var n := |order| - 1;
            MatchPlan(ifaces, order, configs, corder).cmds
            == MatchPlan(ifaces, order[..n], configs, corder).cmds + AssignInterface(ifaces[order[n]], configs, corder).cmds
  {
  }

  /** The visited interfaces of a longer order end with its last interface. */
  lemma VisitedSnoc(ifaces: map<string, Iface>, order: seq<string>)
    requires forall i :: 0 <= i < |order| ==> order[i] in ifaces
    requires |order| > 0
    ensures var n := |order| - 1;
            Visited(ifaces, order) == Visited(ifaces, order[..n]) + [ifaces[order[n]]]
  {
  }

  /**
    Phase 2's commands are those of each `assign_interface` call,
    concatenated in visiting order.
   */
  lemma {:induction false} MatchPlanConcat(ifaces: map<string, Iface>, order: seq<string>, configs: map<string, ConfigMap>, corder: seq<string>)
    requires forall i :: 0 <= i < |order| ==> order[i] in ifaces
    requires Readable(configs, corder)
    ensures MatchPlan(ifaces, order, configs, corder).cmds == AllAssignCmds(Visited(ifaces, order), configs, corder)
    decreases |order|
  {
    if |order| > 0 {
      var n := |order| - 1;
      MatchPlanConcat(ifaces, order[..n], configs, corder);
      MatchPlanSnoc(ifaces, order, configs, corder);
      VisitedSnoc(ifaces, order);
      AllAssignCmdsSnoc(Visited(ifaces, order[..n]), ifaces[order[n]], configs, corder);
    }
  }

  /** What `assign_interface` works from for one interface: the name it renames from and the records' targets. */
  type Block = (string, seq<Option<string>>)

  /** `c` is a command `assign_interface` issues for one of the blocks. */
  predicate IssuedBy(c: Cmd, blocks: seq<Block>)
  {
    exists i :: 0 <= i < |blocks| && IssuedFor(c, blocks[i].0, blocks[i].1)
  }

  /** The blocks of the interfaces phase 2 visits, in visiting order. */
  function Blocks(ifaces: map<string, Iface>, order: seq<string>, configs: map<string, ConfigMap>, corder: seq<string>): (bs: seq<Block>)
    requires forall i :: 0 <= i < |order| ==> order[i] in ifaces
    requires Readable(configs, corder)
    ensures |bs| == |order|
  {
    seq(|order|, i requires 0 <= i < |order| => (ifaces[order[i]].name, RecordTargets(ifaces[order[i]], configs, corder)))
  }

  /** Commands issued for a prefix of the blocks, followed by commands issued for the next block, are all issued by the blocks. */
  lemma IssuedByConcat(before: seq<Cmd>, last: seq<Cmd>, blocks: seq<Block>)
    requires |blocks| > 0
    requires forall j :: 0 <= j < |before| ==> IssuedBy(before[j], blocks[..|blocks| - 1])
    requires forall j :: 0 <= j < |last| ==> IssuedFor(last[j], blocks[|blocks| - 1].0, blocks[|blocks| - 1].1)
    ensures forall j :: 0 <= j < |before + last| ==> IssuedBy((before + last)[j], blocks)
  {
    var n := |blocks| - 1;
    forall j | 0 <= j < |before + last| ensures IssuedBy((before + last)[j], blocks) {
      if j < |before| {
        var i :| 0 <= i < n && IssuedFor(before[j], blocks[..n][i].0, blocks[..n][i].1);
        assert blocks[..n][i] == blocks[i];
      } else {
        assert IssuedFor(last[j - |before|], blocks[n].0, blocks[n].1);
      }
    }
  }

  /**
    Every command of phase 2 is one `assign_interface` issues for some
    visited interface. This is a corollary of `MatchPlanConcat` and
    `AssignInterface`'s contract, stated per command.
   */
  lemma {:induction false} MatchPlanCommands(ifaces: map<string, Iface>, order: seq<string>, configs: map<string, ConfigMap>, corder: seq<string>)
    requires forall i :: 0 <= i < |order| ==> order[i] in ifaces
    requires Readable(configs, corder)
    ensures forall j :: 0 <= j < |MatchPlan(ifaces, order, configs, corder).cmds| ==>
              IssuedBy(MatchPlan(ifaces, order, configs, corder).cmds[j], Blocks(ifaces, order, configs, corder))
    decreases |order|
  {
    if |order| > 0 {
      var n := |order| - 1;
      var o := order[..n];
      MatchPlanCommands(ifaces, o, configs, corder);
      var bs := Blocks(ifaces, order, configs, corder);
      assert bs[..n] == Blocks(ifaces, o, configs, corder);
      var iface := ifaces[order[n]];
      var ts := RecordTargets(iface, configs, corder);
      assert bs[n] == (iface.name, ts);
      MatchPlanSnoc(ifaces, order, configs, corder);
      assert AssignInterface(iface, configs, corder).cmds == Renames(iface.name, ts).cmds;
      IssuedByConcat(MatchPlan(ifaces, o, configs, corder).cmds, Renames(iface.name, ts).cmds, bs);
    }
  }

  /**
    The value of `success` after phase 2 depends only on the interface
    visited last: two visiting orders that end with the same interface give
    the same value, whatever the counts of the others.
   */
  lemma SuccessIsLastCount(ifaces: map<string, Iface>, o1: seq<string>, o2: seq<string>, configs: map<string, ConfigMap>, corder: seq<string>)
    requires forall i :: 0 <= i < |o1| ==> o1[i] in ifaces
    requires forall i :: 0 <= i < |o2| ==> o2[i] in ifaces
    requires Readable(configs, corder)
    requires |o1| > 0 && |o2| > 0 && o1[|o1| - 1] == o2[|o2| - 1]
    ensures MatchPlan(ifaces, o1, configs, corder).success == MatchPlan(ifaces, o2, configs, corder).success
  {
  }
}

=== FILE: results.dfy ===
/** Failure-carrying datatypes shared by the rest of the model. */
module Results {

  /** A value that may be absent: Python's `None` versus a present value. */
  datatype Option<+T> = None | Some(value: T)

  /** The outcome of an operation that may raise: a value, or the exception it raised. */
  datatype Result<+T, +E> = Ok(value: T) | Err(error: E)
}

=== FILE: script.dfy ===
/**
  `main`: the three phases run against the link table. Each `for ... in
  d.keys()` loop visits the keys in an order the caller supplies; each
  `get_interface_dict()` call reads the current table.
 */
module Script {
  import opened Results
  import opened PyStr
  import opened Names
  import opened LinkTable
  import opened IpLink
  import opened Ifcfg
  import opened Renamer
  import opened Fallback

  /** What stops `main` early: `open()` failing in `get_config_files`, or `success` never bound. */
  datatype Crash = Unreadable(error: ReadError) | NameError

  /**
    How a run ends: finished, with the final table, the last value of
    `success`, `unnamed`, and the renames phase 3 made (none when it was
    skipped); or crashed, with the table as it was when the exception rose.
   */
  datatype Outcome =
    | Finished(links: Links, success: nat, unnamed: int, picks: seq<Pick>)
    | Crashed(crash: Crash, links: Links)

  /** Every record read has a `HWADDR` key, and `order` visits each record once. */
  predicate ConfigsReady(configs: map<string, ConfigMap>, order: seq<string>)
  {
    IsOrder(order, configs.Keys) && forall p :: p in configs ==> "HWADDR" in configs[p]
  }

  /** The table after phase 1. */
  function Parked1(t0: Links, order1: seq<string>): Links
  {
    Apply(t0, QuarantinePlan(order1))
  }

  /** Phase 2 on the table left by phase 1. */
  function Matched(t1: Links, order2: seq<string>, configs: map<string, ConfigMap>, corder: seq<string>): MatchOutcome
    requires IsOrder(order2, t1.Keys) && ConfigsReady(configs, corder)
  {
    MatchPlan(Enumerate(t1), order2, configs, corder)
  }

  /** The table after phase 2. */
  function Renamed2(t1: Links, order2: seq<string>, configs: map<string, ConfigMap>, corder: seq<string>): Links
    requires IsOrder(order2, t1.Keys) && ConfigsReady(configs, corder)
  {
    Apply(t1, Matched(t1, order2, configs, corder).cmds)
  }

  /** None of `temp<0>` .. `temp<n-1>` names a link. */
  predicate TempsFree(t: Links, n: nat)
  {
    forall i :: 0 <= i < n ==> Temp(i) !in t
  }

  /** The links phase 1 leaves when `temp<0>` .. `temp<N-1>` are free at the start. */
  predicate Quarantined(t0: Links, order1: seq<string>, t1: Links)
  {
    && t1.Keys == TempNames(|order1|)
    && forall i :: 0 <= i < |order1| ==>
         Temp(i) in t1 && order1[i] in t0 && t1[Temp(i)] == Link(t0[order1[i]].mac, true)
  }

  /** Phase 1 parks every link under its temporary name, provided those names were free. */
  lemma Phase1Effect(t0: Links, order1: seq<string>)
    requires IsOrder(order1, t0.Keys)
    ensures TempsFree(t0, |order1|) ==> Quarantined(t0, order1, Parked1(t0, order1))
  {
    if TempsFree(t0, |order1|) {
      QuarantineEffect(t0, order1);
    }
  }

  /**
    The caller's orders are iteration orders of the dicts they are used on:
    `order1` of the first interface dict, `order2` of the one read after
    phase 1, `corder` of the configuration catalog, `order3` of the snapshot
    read after phase 2.
   */
  predicate RunReady(t0: Links, order1: seq<string>, order2: seq<string>, order3: seq<string>,
                     glob: seq<string>, contents: map<string, string>, corder: seq<string>)
  {
    && IsOrder(order1, t0.Keys)
    && IsOrder(order2, Parked1(t0, order1).Keys)
    && (GetConfig(glob, contents).Ok? ==>
          && ConfigsReady(GetConfig(glob, contents).value, corder)
          && IsOrder(order3, Renamed2(Parked1(t0, order1), order2, GetConfig(glob, contents).value, corder).Keys))
  }

  /**
    Phases 2 and 3 of `main`, from the table phase 1 left and the records
    read: `NameError` exactly when there is no interface to visit (with
    nothing renamed); otherwise the last count, `unnamed`, and phase 3's
    renames when `unnamed` is non-zero, each of which leaves the picked
    link, with its own hardware address, down under its `eth<k>`.
   */
  function Phases23(t1: Links, order2: seq<string>, order3: seq<string>,
                    configs: map<string, ConfigMap>, corder: seq<string>): (o: Outcome)
    requires IsOrder(order2, t1.Keys) && ConfigsReady(configs, corder)
    requires IsOrder(order3, Renamed2(t1, order2, configs, corder).Keys)
    ensures o.Crashed? <==> |t1| == 0
    ensures o.Crashed? ==> o.crash.NameError? && o.links == t1
    ensures |o.links| == |t1| && Macs(o.links) == Macs(t1)
    ensures o.Finished? ==>
              var t2 := Renamed2(t1, order2, configs, corder);
              && Matched(t1, order2, configs, corder).success == Some(o.success)
              && o.unnamed == |t1| - o.success
              && (o.unnamed == 0 ==> o.links == t2 && o.picks == [])
              && (o.unnamed != 0 ==>
                    && o.picks == FallbackPicks(Enumerate(t2), order3, 0)
                    && o.links == Apply(t2, FallbackPlan(Enumerate(t2), order3))
                    && (forall n :: n in o.links ==> Contains(n, "eth"))
                    && forall i :: 0 <= i < |o.picks| ==>
                         && o.picks[i].entry in t2 && Eth(o.picks[i].k) in o.links
                         && o.links[Eth(o.picks[i].k)] == Link(t2[o.picks[i].entry].mac, false))
  {
    var interfaces := Enumerate(t1);
    var r := Matched(t1, order2, configs, corder);
    var t2 := Renamed2(t1, order2, configs, corder);
    ApplyKeepsLinks(t1, r.cmds);
    OrderEmptyIff(order2, t1.Keys);
    if r.success.None? then
      assert |order2| == 0;
      Crashed(NameError, t2)
    else
      var success := r.success.value;
      var unnamed := |interfaces| - success;
      if unnamed != 0 then
        FallbackEffect(t2, order3);
        FallbackMoves(t2, order3);
        var snapshot := Enumerate(t2);
        var t3 := Apply(t2, FallbackPlan(snapshot, order3));
        ApplyKeepsLinks(t2, FallbackPlan(snapshot, order3));
        Finished(t3, success, unnamed, FallbackPicks(snapshot, order3, 0))
      else
        Finished(t2, success, unnamed, [])
  }

  /**
    `main`. Phase 1 parks every interface under `temp<i>`; the configuration
    files are read (a failing `open()` ends the run); phase 2 renames by
    matching `HWADDR`; `unnamed` is the number of interfaces minus the last
    count; phase 3 runs only when `unnamed` is non-zero.
   */
  function Run(t0: Links, order1: seq<string>, order2: seq<string>, order3: seq<string>,
               glob: seq<string>, contents: map<string, string>, corder: seq<string>): (o: Outcome)
    requires RunReady(t0, order1, order2, order3, glob, contents, corder)
    ensures o.Crashed? && o.crash.Unreadable? <==> GetConfigFiles(glob, contents).Err?
    ensures o.Crashed? && o.crash.Unreadable? ==> o.crash.error == GetConfigFiles(glob, contents).error
    ensures o.Crashed? && o.crash.NameError? <==> GetConfigFiles(glob, contents).Ok? && |t0| == 0
    ensures |o.links| == |t0| && Macs(o.links) == Macs(t0)
    ensures o.Finished? ==> o.unnamed == |t0| - o.success
    ensures o.Finished? && o.unnamed != 0 ==> forall n :: n in o.links ==> Contains(n, "eth")
    ensures o.Finished? && o.unnamed == 0 ==> o.picks == []
    ensures TempsFree(t0, |order1|) ==> Quarantined(t0, order1, Parked1(t0, order1))
    ensures o.Crashed? ==> o.links == Parked1(t0, order1)
    ensures o.Finished? ==>
              && GetConfig(glob, contents).Ok?
              && var configs := GetConfig(glob, contents).value;
                 var t1 := Parked1(t0, order1);
                 var t2 := Renamed2(t1, order2, configs, corder);
                 && Matched(t1, order2, configs, corder).success == Some(o.success)
                 && (o.unnamed == 0 ==> o.links == t2)
                 && (o.unnamed != 0 ==>
                       && o.picks == FallbackPicks(Enumerate(t2), order3, 0)
                       && o.links == Apply(t2, FallbackPlan(Enumerate(t2), order3)))
  {
    var t1 := Parked1(t0, order1);
    Phase1Effect(t0, order1);
    ApplyKeepsLinks(t0, QuarantinePlan(order1));
    match GetConfig(glob, contents)
    case Err(e) => Crashed(Unreadable(e), t1)
    case Ok(configs) => Phases23(t1, order2, order3, configs, corder)
  }

  /** An iteration order is empty exactly when the dict is. */
  lemma OrderEmptyIff(order: seq<string>, keys: set<string>)
    requires IsOrder(order, keys)
    ensures |order| == 0 <==> |keys| == 0
  {
    if |order| > 0 {
      assert order[0] in keys;
    }
    if keys != {} {
      var k :| k in keys;
      assert k in order;
    }
  }
}
